=== FILE: README.md ===
# 99CONSULTANT marketplace core in Dafny

This project models the request handlers of the consultation marketplace.
Clients book paid sessions with approved consultants, pay for them through a
(mock) gateway, join a live session and review it. Consultants publish a
profile. An admin dashboard approves or rejects consultants.

The persisted state is a `Store` of six tables: users, consultant profiles,
bookings, sessions, reviews and earnings. Each table is a sequence of rows in
insertion order. A lookup by a unique column (`findUnique`) finds the one
matching row. A lookup by a filter (`findFirst`) without an `orderBy` may
return any matching row; the model chooses the earliest inserted one. `orderBy: { createdAt: 'desc' }`
is the reverse of insertion order.

Each handler is a pure function from the store and a request to a `Step`: the
next store and either a value or an HTTP error (400, 403, 404 or 500). Absent
JSON fields, and fields that are explicitly `null`, are `None`. A string field is truthy when it is present and
non-empty; a number field is truthy when it is present and non-zero.
Generated ids, booking numbers, join codes, transaction ids, the clock, the
gateway's verdict and the bcrypt hash are parameters of the handlers.

Modules:

- `Basics`, `Text`, `Http`: options, table lookups, JavaScript string helpers
  and HTTP errors.
- `Db`: the schema.
- `Listing`: the pagination shared by the list endpoints.
- One module per route: `Users`, `Consultants`, `Categories`, `Bookings`,
  `Payments`, `Sessions`, `Reviews`.
- `Admin`: the dashboard's approval panel and status badge.
- `Lifecycle`: a whole-store invariant that every write handler preserves.
- `Traces`: multi-request scenarios that show how a booking's workflow status
  and payment status interact.

The handlers keep two quirks exactly as written:

- An instant booking is stored CONFIRMED while its payment is still PENDING.
- Opening a session marks its booking COMPLETED.

Together these let an instant booking be completed and reviewed without ever
being paid (`Traces.InstantBookingCompletedUnpaid`). A later successful charge
moves a COMPLETED booking back to CONFIRMED
(`Traces.ChargeReopensCompletedBooking`).

`Lifecycle.BookingConsistent` lists the pairs of workflow status and payment
status that the handlers can produce. A CONFIRMED or COMPLETED booking without
a completed payment is always an instant booking.

## Model

| member | source | states |
|---|---|---|
| Listing.PartyFilterFor | src/app/api/bookings/route.ts:23-32 | role "client" filters on clientId and role "consultant" on consultantId, only when both userId and role are non-empty; any other role adds no party filter |
| Listing.PageCountIsCeiling | src/app/api/bookings/route.ts:82 | `pages` is the least integer p with p ≥ total/limit, for either sign of limit; it is absent (non-finite) exactly when limit is 0 |
| Listing.Window | src/app/api/bookings/route.ts:67-68 | skip/take returns the consecutive rows starting at `skip`: at most `take` of them, as many as remain; a negative skip or take is a server error |
| Listing.Paginate | src/app/api/bookings/route.ts:21-84 | a page succeeds iff limit is 0, or limit is positive and page ≥ 1; its items are exactly the rows at positions (page − 1) × limit onwards of the matching list, as many as the limit allows and the list holds; the response echoes page and limit, total counts every match and pages is the ceiling of total / limit |
| Listing.PageIsDetermined | src/app/api/bookings/route.ts:66-68 | the page description fixes the items: two pages of the same list, page number and limit are equal |
| Listing.NewestFirst | src/app/api/bookings/route.ts:69-71 | the listing holds exactly the matching rows, each taken from the table |
| Basics.FilterCount | src/app/admin/dashboard/page.tsx:243 | a filter keeps each kept row as often as it occurs, and drops every other row entirely |
| Basics.FilterConcat | src/app/admin/dashboard/page.tsx:243 | filtering distributes over concatenation, so kept rows keep their relative order |
| Listing.NewestFirstAppend | src/app/api/reviews/route.ts:68-70 | the row written last is listed first when it matches, ahead of every older match, and the older matches keep their order |
| Users.Get | src/app/api/users/route.ts:6-93 | an id is looked up first, and an unknown id is a 404; otherwise an email lookup answers a null user exactly when no user has that email, and else the public fields of the first user with that email; with neither parameter the answer is a 400 |
| Users.GetIdTakesPrecedence | src/app/api/users/route.ts:12-60 | when an id is given, the email parameter never changes the answer |
| Users.Create | src/app/api/users/route.ts:95-158 | success iff email and password are non-empty and the email is unused; on success exactly one user is appended, with the hashed password and role CLIENT by default, and the response omits the password; an error leaves the store unchanged |
| Users.CreateKeepsEmailsUnique | src/app/api/users/route.ts:108-119 | emails stay unique |
| Users.Update | src/app/api/users/route.ts:160-219 | 400 without userId and 404 for an unknown user; otherwise only that user's row changes, only non-empty fields overwrite, and id, email and password are kept |
| Users.UpdateKeepsKeysUnique | src/app/api/users/route.ts:184-194 | ids and emails stay unique |
| Consultants.Cards | src/app/api/consultants/route.ts:17-40 | a user is listed iff their profile is approved, their role is CONSULTANT, and they pass the category, online and name/bio/skills search filters; every card shows some user of the table and there are at most as many cards as users |
| Consultants.CardsDistinct | src/app/api/consultants/route.ts:43 | with unique user ids no consultant is listed twice |
| Consultants.OnlineFirstOrdered | src/app/api/consultants/route.ts:69-73 | online consultants come before offline ones, and the ordering is a permutation of the matches |
| Consultants.OnlineFirstPermutes | src/app/api/consultants/route.ts:69-73 | the online-first ordering neither loses nor duplicates a consultant |
| Consultants.Discover | src/app/api/consultants/route.ts:5-130 | a category other than "all" that is not in the enum, or a bad page/limit, is a 500, and the answer succeeds otherwise; every listed consultant is approved, has role CONSULTANT, has the shown profile and matches every filter; the items are exactly the requested page of the matches, online ones first; page and limit are echoed, total counts all matches and pages is the ceiling of total / limit |
| Consultants.Upsert | src/app/api/consultants/route.ts:132-208 | 500 without userId, 404 for an unknown user, 400 for a non-consultant, 500 when the category or either price is missing or the category is not an enum value; otherwise only the profile table changes and the user's profile becomes the result: category and prices as given, every other given field written and every undefined one kept (empty on creation), approval and the online flag kept (false on creation); the table grows by at most one row and other users' profiles are untouched |
| Consultants.UpsertIdempotent | src/app/api/consultants/route.ts:167-195 | sending the same profile twice changes nothing the second time |
| Consultants.UpsertKeepsOneProfilePerUser | src/app/api/consultants/route.ts:167-195 | a user never gets a second profile |
| Categories.Icon | src/app/api/categories/route.ts:30-45 | the icon of a listed category id, or the clipboard icon for any other id |
| Categories.CountIn | src/app/api/categories/route.ts:10-18 | the count is the number of profiles that are approved, of that category and belong to a CONSULTANT user; it is zero iff no approved profile of that category belongs to a CONSULTANT user, and never exceeds the number of profiles |
| Categories.Entries | src/app/api/categories/route.ts:8-27 | one entry per enum value, in enum order |
| Categories.BeforeTotal | src/app/api/categories/route.ts:48-53 | the comparator orders any two entries |
| Categories.BeforeTransitive | src/app/api/categories/route.ts:48-53 | the comparator is transitive |
| Categories.Insert | src/app/api/categories/route.ts:48-53 | inserting into a sorted list keeps it sorted and adds exactly that entry |
| Categories.Sort | src/app/api/categories/route.ts:48-53 | the result is sorted by count descending, then by name, and is a permutation of the input |
| Categories.List | src/app/api/categories/route.ts:5-57 | the listing is sorted and is a permutation of the per-value entries; each entry's id, name, icon and count are derived from its value |
| Categories.OneEntryPerValue | src/app/api/categories/route.ts:8-27 | the listing holds each value's entry exactly as often as the value occurs in the enumeration |
| Categories.Create | src/app/api/categories/route.ts:67-84 | a body that parses to a non-null value is refused with a 400; a body that does not parse, or is `null`, is a 500; the store is never written |
| Bookings.Create | src/app/api/bookings/route.ts:94-197 | 400 for a missing party, 404 without a profile and 400 for an unapproved consultant; otherwise exactly one booking is appended at the price tier chosen by isFirstSession, PENDING on both axes in the response, with the given notes and the requested time or null when none was given; the stored row is CONFIRMED and scheduled now when the booking is instant |
| Bookings.InstantBookingConfirmedUnpaid | src/app/api/bookings/route.ts:173-189 | an accepted instant booking is stored CONFIRMED with payment PENDING, while the response still shows it PENDING |
| Bookings.ScheduledBookingPending | src/app/api/bookings/route.ts:137-151 | any other accepted booking is stored exactly as returned: PENDING and unpaid |
| Bookings.List | src/app/api/bookings/route.ts:12-92 | the paging condition decides success; the items are exactly the requested page of the bookings matching the party and status filters, newest first; total counts all matches and pages is the ceiling of total/limit |
| Payments.CommissionIsFloorOfFifth | src/app/api/payments/route.ts:162 | the commission is the floor of a fifth of the amount |
| Payments.CommissionSplit | src/app/api/payments/route.ts:162-163 | the consultant's share and the commission add up to the amount, and for a non-negative amount the commission is at most the share |
| Payments.Charge | src/app/api/payments/route.ts:65-193 | 400 for a missing or zero field, 404 for an unknown booking, 400 when already paid or the amount differs from the price; a declined charge marks only the payment FAILED; an approved one marks the booking paid and CONFIRMED with the TXN id, and appends one earning |
| Payments.ChargeEarning | src/app/api/payments/route.ts:160-174 | a successful charge appends exactly one PENDING earning for the booking, whose parts add up to the amount, with a fifth rounded down kept as commission |
| Payments.ZeroAmountRefused | src/app/api/payments/route.ts:71-76 | an amount of 0 is refused with a 400 before the booking is read |
| Payments.RefundBookingIdWins | src/app/api/payments/route.ts:280-288 | a given bookingId picks the booking and transactionId is then ignored |
| Payments.Refund | src/app/api/payments/route.ts:266-356 | 400 without either id, 404 for an unknown booking, 400 unless the payment is COMPLETED; otherwise the booking becomes REFUNDED and CANCELLED, the earliest-inserted earning of the booking is HELD (the model's choice for an unordered `findFirst`), and the response carries the REF id, the price and the reason or its default |
| Sessions.Create | src/app/api/sessions/route.ts:96-206 | 400 for a missing field, 404 for an unknown booking, 400 unless the booking is CONFIRMED, 500 when a unique session column would repeat; otherwise the booking becomes COMPLETED and points at the new ACTIVE session, and the response shows the SCHEDULED record with its URL |
| Sessions.CreateSucceeds | src/app/api/sessions/route.ts:121-190 | a CONFIRMED booking without a session always gets one when the generated id and code are new |
| Sessions.UrlCarriesCode | src/app/api/sessions/route.ts:181 | the join URL is the session host followed by the session's code |
| Sessions.Join | src/app/api/sessions/route.ts:209-295 | 400 for a missing field and 404 for an unknown code; a client or consultant who is not the session's party gets a 403, and other roles are let through; a SCHEDULED session becomes ACTIVE with a start time; the response reports the status read before the update |
| Sessions.JoinIdempotent | src/app/api/sessions/route.ts:265-274 | joining twice changes nothing the second time |
| Sessions.JoinAfterCreateWritesNothing | src/app/api/sessions/route.ts:183-190 | a session opened by the create handler is already ACTIVE, so joining it never writes |
| Sessions.List | src/app/api/sessions/route.ts:12-94 | the items are exactly the requested page of the sessions matching the party and status filters, newest first; total counts all matches; success and pages follow the paging rules |
| Reviews.CheckPassesIff | src/app/api/reviews/route.ts:106-161 | a review is accepted exactly when all fields are given, the rating is 1 to 5, and the booking exists, belongs to the client, is COMPLETED and has no review |
| Reviews.Create | src/app/api/reviews/route.ts:93-210 | each failed check answers with its own code (400, 404 or 403) and writes nothing; otherwise exactly one review is appended, public unless stated otherwise |
| Reviews.CreatedReviewIsGrounded | src/app/api/reviews/route.ts:115-149 | a written review has a rating from 1 to 5, and its booking is the reviewer's and COMPLETED |
| Reviews.SecondReviewRefused | src/app/api/reviews/route.ts:151-161 | a second review of the same booking is a 400 that writes nothing |
| Reviews.CreateKeepsOneReviewPerBooking | src/app/api/reviews/route.ts:151-161 | at most one review per booking is kept |
| Reviews.List | src/app/api/reviews/route.ts:4-91 | the items are exactly the requested page of the public reviews matching the consultant, client and booking filters, newest first; total counts all of them |
| Reviews.PrivateReviewsHidden | src/app/api/reviews/route.ts:30-31 | a private review is never listed, whatever the query |
| Reviews.NewPublicReviewListedFirst | src/app/api/reviews/route.ts:66-71 | a newly written public review heads the first page of its booking's listing |
| Admin.Approve | src/app/admin/dashboard/page.tsx:218-236 | each listed consultant with that id becomes approved and every other entry is unchanged; the dialog closes and the selection clears |
| Admin.ApproveHidesReviewAction | src/app/admin/dashboard/page.tsx:440 | after approval the Review action disappears for that consultant and stays as it was for the others; approving again changes nothing |
| Admin.Reject | src/app/admin/dashboard/page.tsx:238-255 | without a selection nothing changes; otherwise exactly the entries with the selected id are removed, every other entry keeps its multiplicity and order (the table filter), and the dialog, selection and reason are reset |
| Admin.RejectRemovesSelected | src/app/admin/dashboard/page.tsx:238-255 | rejecting a listed consultant shrinks the list and drops that entry |
| Admin.RejectEnabledIff | src/app/admin/dashboard/page.tsx:499 | the Reject button is enabled iff the reason has a character that is not whitespace |
| Admin.StatusBadge | src/app/admin/dashboard/page.tsx:257-270 | PENDING gets the secondary badge, CONFIRMED and COMPLETED the default one, CANCELLED and NO_SHOW the destructive one; the label is the status name with every letter after the first lower-cased |
| Admin.StatusLabels | src/app/admin/dashboard/page.tsx:268 | the labels are Pending, Confirmed, Completed, Cancelled and No_show |
| Admin.StatusLabelsDistinct | src/app/admin/dashboard/page.tsx:268 | no two statuses share a label |
| Lifecycle.BookingRewriteValid | src/app/api/payments/route.ts:119-141 | rewriting a booking in place, keeping its id, client and session pointer, keeps the store valid when the new row is consistent |
| Lifecycle.UsersCreateValid | src/app/api/users/route.ts:95-158 | user creation keeps the store valid when the new id is fresh |
| Lifecycle.UsersUpdateValid | src/app/api/users/route.ts:160-219 | user update keeps the store valid |
| Lifecycle.ConsultantsUpsertValid | src/app/api/consultants/route.ts:132-208 | the profile upsert keeps the store valid |
| Lifecycle.BookingsCreateValid | src/app/api/bookings/route.ts:94-197 | booking creation, including the instant shortcut, keeps every booking consistent and the store valid |
| Lifecycle.ChargeValid | src/app/api/payments/route.ts:65-193 | charging keeps every booking consistent and every earning a correct split of a real booking |
| Lifecycle.RefundValid | src/app/api/payments/route.ts:266-356 | refunding keeps the store valid |
| Lifecycle.EarningHoldValid | src/app/api/payments/route.ts:327-338 | holding an earning keeps its split and its booking |
| Lifecycle.SessionLinkValid | src/app/api/sessions/route.ts:139-190 | linking a session with fresh keys to a CONFIRMED booking, which becomes COMPLETED and points at it, keeps the store valid |
| Lifecycle.SessionRewriteValid | src/app/api/sessions/route.ts:266-274 | rewriting a session in place, keeping its id, code and booking, keeps the store valid |
| Lifecycle.SessionsCreateValid | src/app/api/sessions/route.ts:96-206 | opening a session keeps the store valid: one session per booking, and each session's booking points back at it |
| Lifecycle.SessionsJoinValid | src/app/api/sessions/route.ts:209-295 | joining keeps the store valid |
| Lifecycle.ReviewsCreateValid | src/app/api/reviews/route.ts:93-210 | a review keeps the store valid: each review's booking exists and belongs to the reviewer |
| Traces.CommissionExample | src/app/api/payments/route.ts:160-174 | a payment of 99 leaves 80 to the consultant and 19 to the platform |
| Traces.FreeBookingNeverPaid | src/app/api/payments/route.ts:71-108 | a booking priced 0 can never be charged successfully |
| Traces.SecondSessionRefused | src/app/api/sessions/route.ts:127-132 | after a successful create, a second create for the same booking is a 400 that writes nothing, because the booking is now COMPLETED (route.ts:171-177) |
| Traces.SecondChargeRefused | src/app/api/payments/route.ts:96-101 | after a successful charge the same charge is a 400 that writes nothing |
| Traces.DeclinedChargeRetried | src/app/api/payments/route.ts:119-132 | a declined charge marks the payment FAILED and an approved retry then succeeds |
| Traces.SecondRefundRefused | src/app/api/payments/route.ts:297-302 | after a refund the same refund is a 400 that writes nothing |
| Traces.InstantBookingOpened | src/app/api/bookings/route.ts:163-189 | an accepted instant booking with a fresh id is appended CONFIRMED and unpaid, is found under its id, and the rest of the store is unchanged |
| Traces.InstantBookingCompletedUnpaid | src/app/api/bookings/route.ts:173-184 | an instant booking can be opened as a session and then reviewed while its payment is PENDING and no earning exists |
| Traces.ChargeReopensCompletedBooking | src/app/api/payments/route.ts:135-141 | charging a COMPLETED booking moves it back to CONFIRMED; a second session for it passes the status check and fails only on the unique booking column |
| Traces.RefundedBookingPaidAgain | src/app/api/payments/route.ts:327-338 | a refunded booking can be paid again, which records a second earning; the next refund holds only the earliest-inserted earning, so the second stays PENDING under the model's `findFirst` choice |

## Left out

- Mock gateway: the random outcome, the artificial delays and the transaction-id format after the TXN/REF prefix are not modelled. The gateway's verdict and the id suffixes are parameters. The refund gateway always succeeds, so its failure branch is unreachable and is not modelled.
- The payment verification helper and the payments GET endpoint are left out; only charge and refund are modelled.
- Generated ids, booking numbers and join codes are parameters. Row ids are assumed fresh by the invariant lemmas. A colliding booking number, or a colliding user, booking, review or earning id, would be a store error (500) and is not modelled. Session ids, join codes and bookings are the exception: those collisions are modelled as a 500.
- bcrypt is the `hash` parameter. `JSON.stringify` of profile fields is opaque text.
- `localeCompare` is modelled as code-point order (`LexLe`). Lower-casing (`toLowerCase`, case-insensitive `contains`) covers ASCII letters only.
- Payments.Commission: modelled as `amount / 5` for whole amounts, which equals `Math.floor(amount * 0.2)` in double precision for |amount| < 2^53. Fractional amounts and prices are not modelled.
- Ratings, amounts, prices, durations, page and limit are integers. Fractional JSON numbers and `parseInt` returning NaN are not modelled.
- Listing.Window: a negative skip or take is modelled as a server error. The ORM's exact behaviour there is not modelled.
- Listing.Paginate: weaker than the source for a negative limit, for the same reason as Listing.Window.
- Payments.Refund: the earning marked HELD is assumed to be the earliest-inserted earning of the booking. The `findFirst` at src/app/api/payments/route.ts:327-329 has no `orderBy`, so the database may pick any earning of that booking when there are several. Traces.RefundedBookingPaidAgain depends on this assumption: its second earning stays PENDING only because the first one is the one held.
- Consultants.Upsert: an explicit JSON `null` for a profile field is not distinguished from an absent field; both are `None`. On update, an absent field keeps the stored value, which is modelled. A `null` for `bio`, `experience` or `subcategory` (src/app/api/consultants/route.ts:169-180) instead writes NULL, or is a 500 when the column is required. The model keeps the stored value in that case.
- Consultants.Discover: consultants with the same online flag are assumed to come in table order. The query has no tiebreaker (src/app/api/consultants/route.ts:69-73), so the database may return them in any order.
- The average rating and review count in the discovery response (src/app/api/consultants/route.ts:77-109) are not modelled. Neither are the `_count` and `include` projections of the users and list endpoints.
- Dates: `new Date(scheduledFor)` parsing is not modelled; a time is an integer, and the time 0 stands for the empty string (both are falsy and stored as null).
- A status query parameter outside the enum (an ORM error) is not modelled; the filter is an optional enum value.
- Schema defaults are assumed: a new profile is not approved and offline.
- The database's foreign-key constraints are not modelled. A booking, review or session whose `clientId` or `consultantId` names no user is rejected by the database with a 500; the model accepts it instead. The handlers check only that these ids are non-empty (src/app/api/bookings/route.ts:108-113, src/app/api/reviews/route.ts:107, src/app/api/sessions/route.ts:106); reviews and sessions also look up their booking and answer 404 when it is missing, which is modelled.
- Enum-valued body fields outside their enum (a booking type other than INSTANT or SCHEDULED, a user role other than CLIENT, CONSULTANT or ADMIN) reach the database unchecked and give a 500. The model's request fields are enum-typed, so such values cannot be expressed.
- A request body that does not parse as JSON, or parses to `null`, makes every POST and PUT handler throw into its catch block and answer 500. Only Categories.Create models this; the other handlers' request datatypes stand for parsed objects.
- Consultants.Upsert: prisma/schema.prisma is not part of this model, so the upsert assumes that the category and both prices are required columns without a default; the `create` argument then fails validation without them (a 500), whether or not the profile exists.
- Concurrency, the absence of transactions across the multi-write handlers, and the generic 500 catch-all for store failures are not modelled. Each handler runs atomically.
- The dashboard's mock data loading and statistics are not modelled, nor is any JSX other than the Review-action and Reject-button conditions.
- prisma/seed.ts is not part of this model.

=== FILE: admin.dfy ===
/** The admin dashboard's consultant-approval panel and booking status badge
    (src/app/admin/dashboard/page.tsx). The panel keeps its own list of
    consultants in component state; approving or rejecting changes that list
    only (the server call is a mock delay). */
module Admin {
  import opened Basics
  import opened Db
  import opened Text

  /** The profile columns the panel shows. */
  datatype Summary = Summary(
    category: string, isApproved: bool, isOnline: bool,
    firstSessionPrice: int, regularSessionPrice: int)

  datatype Consultant = Consultant(id: string, name: string, email: string, profile: Summary)

  /** The panel's state: the listed consultants, the one under review, whether
      the review dialog is open, and the typed rejection reason. */
  datatype Panel = Panel(
    consultants: seq<Consultant>,
    selected: Option<Consultant>,
    dialogOpen: bool,
    rejectionReason: string)

  function Approved(c: Consultant): Consultant {
    c.(profile := c.profile.(isApproved := true))
  }

  /** Mark every listed consultant with `c`'s id approved, close the dialog
      and clear the selection. The typed reason is kept. */
  function Approve(p: Panel, c: Consultant): (r: Panel)
    ensures |r.consultants| == |p.consultants|
    ensures forall i :: 0 <= i < |p.consultants| ==>
      && r.consultants[i].id == p.consultants[i].id
      && (p.consultants[i].id == c.id ==> r.consultants[i] == Approved(p.consultants[i]))
      && (p.consultants[i].id != c.id ==> r.consultants[i] == p.consultants[i])
    ensures !r.dialogOpen && r.selected.None? && r.rejectionReason == p.rejectionReason
  {
    var cs := seq(|p.consultants|, i requires 0 <= i < |p.consultants| =>
                  if p.consultants[i].id == c.id then Approved(p.consultants[i]) else p.consultants[i]);
    Panel(cs, None, false, p.rejectionReason)
  }

  /** The "Review" action is offered only for consultants not yet approved. */
  predicate ShowsReviewAction(c: Consultant) {
    !c.profile.isApproved
  }

  /** Approving is idempotent and hides the Review action for that consultant
      while leaving it on every other row as it was. */
  lemma ApproveHidesReviewAction(p: Panel, c: Consultant)
    ensures var r := Approve(p, c);
      && Approve(r, c).consultants == r.consultants
      && forall i :: 0 <= i < |r.consultants| ==>
           (ShowsReviewAction(r.consultants[i]) <==>
              p.consultants[i].id != c.id && ShowsReviewAction(p.consultants[i]))
  {
    var r := Approve(p, c);
    var r2 := Approve(r, c);
    assert forall i :: 0 <= i < |r.consultants| ==> r2.consultants[i] == r.consultants[i];
  }

  /** Remove the consultant under review from the list, close the dialog and
      clear both the selection and the reason. Without a selection nothing
      happens. */
  function Reject(p: Panel): (r: Panel)
    ensures p.selected.None? ==> r == p
    ensures p.selected.Some? ==>
      && !r.dialogOpen && r.selected.None? && r.rejectionReason == ""
      && (forall i :: 0 <= i < |r.consultants| ==>
            r.consultants[i] in p.consultants && r.consultants[i].id != p.selected.value.id)
      && (forall i :: 0 <= i < |p.consultants| && p.consultants[i].id != p.selected.value.id ==>
            p.consultants[i] in r.consultants)
      && (forall i :: 0 <= i < |p.consultants| ==>
            multiset(r.consultants)[p.consultants[i]] ==
              (if p.consultants[i].id != p.selected.value.id then multiset(p.consultants)[p.consultants[i]] else 0))
      && r.consultants == Filter(p.consultants, (c: Consultant) => c.id != p.selected.value.id)
      && |r.consultants| <= |p.consultants|
  {
    match p.selected
    case None => p
    case Some(sel) =>
      var keep := (c: Consultant) => c.id != sel.id;
      assert forall i :: 0 <= i < |p.consultants| ==>
        multiset(Filter(p.consultants, keep))[p.consultants[i]] ==
          (if keep(p.consultants[i]) then multiset(p.consultants)[p.consultants[i]] else 0) by {
        forall i | 0 <= i < |p.consultants| {
          FilterCount(p.consultants, keep, p.consultants[i]);
        }
      }
      Panel(Filter(p.consultants, keep), None, false, "")
  }

  /** Rejecting a listed consultant shrinks the list. */
  lemma RejectRemovesSelected(p: Panel, k: nat)
    requires p.selected.Some? && k < |p.consultants| && p.consultants[k].id == p.selected.value.id
    ensures |Reject(p).consultants| < |p.consultants|
    ensures p.consultants[k] !in Reject(p).consultants
  {
    FilterDrops(p.consultants, (c: Consultant) => c.id != p.selected.value.id, k);
  }

  /** A filter that rejects some row returns fewer rows. */
  lemma {:induction false} FilterDrops<T>(rows: seq<T>, keep: T -> bool, k: nat)
    requires k < |rows| && !keep(rows[k])
    ensures |Filter(rows, keep)| < |rows|
  {
    assert rows == [rows[0]] + rows[1..];
    if k > 0 {
      FilterDrops(rows[1..], keep, k - 1);
    } else {
      assert |Filter(rows[1..], keep)| <= |rows[1..]|;
    }
  }

  /** The Reject button is disabled while `!rejectionReason.trim()`. */
  predicate RejectEnabled(reason: string) {
    Trim(reason) != ""
  }

  /** Rejection needs a reason with at least one non-whitespace character. */
  lemma RejectEnabledIff(reason: string)
    ensures RejectEnabled(reason) <==> exists i :: 0 <= i < |reason| && !IsJsWhitespace(reason[i])
  {
    TrimEmptyIffAllWhitespace(reason);
  }

  datatype Variant = Default | Secondary | Destructive

  /** The enum constant's name as the client receives it. */
  function StatusName(status: BookingStatus): string {
    match status
    case PENDING => "PENDING"
    case CONFIRMED => "CONFIRMED"
    case COMPLETED => "COMPLETED"
    case CANCELLED => "CANCELLED"
    case NO_SHOW => "NO_SHOW"
  }

  /** `getStatusBadge`: the badge variant and the label, which is the enum
      name with every letter after the first lower-cased. */
  function StatusBadge(status: BookingStatus): (r: (Variant, string))
    ensures r.0 == Secondary <==> status == BookingStatus.PENDING
    ensures r.0 == Destructive <==> status == BookingStatus.CANCELLED || status == BookingStatus.NO_SHOW
    ensures r.0 == Default <==> status == BookingStatus.CONFIRMED || status == BookingStatus.COMPLETED
    ensures r.1 == Capitalize(StatusName(status))
  {
    var variant := match status
      case PENDING => Secondary
      case CONFIRMED => Default
      case COMPLETED => Default
      case CANCELLED => Destructive
      case NO_SHOW => Destructive;
    (variant, Capitalize(StatusName(status)))
  }

  /** The labels read "Pending", "Confirmed", "Completed", "Cancelled" and
      "No_show"; no two statuses share one. */
  lemma StatusLabels()
    ensures StatusBadge(BookingStatus.PENDING).1 == "Pending"
    ensures StatusBadge(BookingStatus.CONFIRMED).1 == "Confirmed"
    ensures StatusBadge(BookingStatus.COMPLETED).1 == "Completed"
    ensures StatusBadge(BookingStatus.CANCELLED).1 == "Cancelled"
    ensures StatusBadge(BookingStatus.NO_SHOW).1 == "No_show"
  {
    LabelIs("PENDING", "Pending");
    LabelIs("CONFIRMED", "Confirmed");
    LabelIs("COMPLETED", "Completed");
    LabelIs("CANCELLED", "Cancelled");
    LabelIs("NO_SHOW", "No_show");
  }

  /** One label, checked character by character. */
  lemma LabelIs(name: string, shown: string)
    requires |name| == |shown| && |name| > 0 && name[0] == shown[0]
    requires forall i :: 1 <= i < |name| ==> LowerChar(name[i]) == shown[i]
    ensures Capitalize(name) == shown
  {
    assert forall i :: 0 <= i < |shown| ==> Capitalize(name)[i] == shown[i];
  }

  lemma StatusLabelsDistinct(a: BookingStatus, b: BookingStatus)
    requires a != b
    ensures StatusBadge(a).1 != StatusBadge(b).1
  {
    StatusLabels();
  }
}

=== FILE: basics.dfy ===
/** Generic building blocks: optional values, JavaScript truthiness of request
    fields, and the row-table operations (first match by key, filtering,
    reversal, key uniqueness) that every handler is written with.

    A table is a sequence of rows in insertion order. Looking a row up by a
    key returns the FIRST row whose key matches. For a unique column that is
    the only such row; for a `findFirst` without an `orderBy` it is the
    model's choice among the matching rows. */
module Basics {

  datatype Option<T> = None | Some(value: T)

  /** A JSON string field is truthy when present, non-null and non-empty. */
  predicate Truthy(s: Option<string>) {
    s.Some? && s.value != ""
  }

  /** A JSON number field is truthy when present and non-zero. */
  predicate TruthyNumber(n: Option<int>) {
    n.Some? && n.value != 0
  }

  /** `value ?? fallback` for a field that has a destructuring default. */
  function OrElse<T>(o: Option<T>, fallback: T): T {
    if o.Some? then o.value else fallback
  }

  /** Index of the first row whose key equals `k`. */
  function IndexOf<T, K(==)>(rows: seq<T>, key: T -> K, k: K): (r: Option<nat>)
    ensures r.Some? ==> r.value < |rows| && key(rows[r.value]) == k
    ensures r.Some? ==> forall j :: 0 <= j < r.value ==> key(rows[j]) != k
    ensures r.None? <==> forall j :: 0 <= j < |rows| ==> key(rows[j]) != k
  {
    if |rows| == 0 then None
    else if key(rows[0]) == k then Some(0)
    else match IndexOf(rows[1..], key, k)
      case None => None
      case Some(i) => Some(i + 1)
  }

  /** The rows satisfying `p`, in table order (`FilterCount` and
      `FilterConcat` characterise it). */
  function Filter<T>(rows: seq<T>, p: T -> bool): (r: seq<T>)
    ensures |r| <= |rows|
    ensures forall i :: 0 <= i < |r| ==> r[i] in rows && p(r[i])
    ensures forall i :: 0 <= i < |rows| && p(rows[i]) ==> rows[i] in r
  {
    if |rows| == 0 then []
    else
      assert rows == [rows[0]] + rows[1..];
      (if p(rows[0]) then [rows[0]] else []) + Filter(rows[1..], p)
  }

  /** A kept row occurs in the result as often as in `rows`, any other row
      not at all. */
  lemma {:induction false} FilterCount<T>(rows: seq<T>, p: T -> bool, x: T)
    ensures multiset(Filter(rows, p))[x] == if p(x) then multiset(rows)[x] else 0
  {
    if |rows| > 0 {
      FilterCount(rows[1..], p, x);
      assert rows == [rows[0]] + rows[1..];
    }
  }

  /** Filtering distributes over concatenation, so it keeps the relative
      order of the rows it keeps. */
  lemma {:induction false} FilterConcat<T>(a: seq<T>, b: seq<T>, p: T -> bool)
    ensures Filter(a + b, p) == Filter(a, p) + Filter(b, p)
  {
    if |a| > 0 {
      FilterConcat(a[1..], b, p);
      assert (a + b)[0] == a[0] && (a + b)[1..] == a[1..] + b;
    } else {
      assert a + b == b;
    }
  }

  /** The rows in the opposite order (newest first for an insertion-ordered table). */
  function Reverse<T>(rows: seq<T>): (r: seq<T>)
    ensures |r| == |rows|
    ensures forall i :: 0 <= i < |rows| ==> r[i] == rows[|rows| - 1 - i]
  {
    if |rows| == 0 then [] else Reverse(rows[1..]) + [rows[0]]
  }

  lemma ReverseMembers<T>(rows: seq<T>)
    ensures forall x :: x in Reverse(rows) <==> x in rows
  {
    var r := Reverse(rows);
    forall x | x in rows ensures x in r {
      var j :| 0 <= j < |rows| && rows[j] == x;
      assert r[|rows| - 1 - j] == x;
    }
    forall x | x in r ensures x in rows {
      var j :| 0 <= j < |r| && r[j] == x;
      assert rows[|rows| - 1 - j] == x;
    }
  }

  /** No two rows share a key (a unique column). */
  ghost predicate UniqueBy<T, K>(rows: seq<T>, key: T -> K) {
    forall i, j :: 0 <= i < |rows| && 0 <= j < |rows| && i != j ==> key(rows[i]) != key(rows[j])
  }

  /** No row has key `k` yet. */
  ghost predicate Fresh<T, K>(rows: seq<T>, key: T -> K, k: K) {
    forall i :: 0 <= i < |rows| ==> key(rows[i]) != k
  }

  lemma UniqueByAppend<T, K>(rows: seq<T>, key: T -> K, x: T)
    requires UniqueBy(rows, key) && Fresh(rows, key, key(x))
    ensures UniqueBy(rows + [x], key)
  {
    var rows' := rows + [x];
    forall i, j | 0 <= i < |rows'| && 0 <= j < |rows'| && i != j
      ensures key(rows'[i]) != key(rows'[j])
    {
      if i < |rows| && j < |rows| {
        assert rows'[i] == rows[i] && rows'[j] == rows[j];
      } else if i < |rows| {
        assert rows'[i] == rows[i];
      } else {
        assert rows'[j] == rows[j];
      }
    }
  }

  lemma UniqueByUpdate<T, K>(rows: seq<T>, key: T -> K, i: nat, x: T)
    requires UniqueBy(rows, key) && i < |rows| && key(x) == key(rows[i])
    ensures UniqueBy(rows[i := x], key)
  {
    var rows' := rows[i := x];
    forall a, b | 0 <= a < |rows'| && 0 <= b < |rows'| && a != b
      ensures key(rows'[a]) != key(rows'[b])
    {
      assert key(rows'[a]) == key(rows[a]) && key(rows'[b]) == key(rows[b]);
    }
  }

  /** Replacing a row by one with the same key does not move any lookup. */
  lemma IndexOfUpdate<T, K>(rows: seq<T>, key: T -> K, i: nat, x: T, k: K)
    requires i < |rows| && key(x) == key(rows[i])
    ensures IndexOf(rows[i := x], key, k) == IndexOf(rows, key, k)
  {
    var rows' := rows[i := x];
    assert forall j :: 0 <= j < |rows| ==> key(rows'[j]) == key(rows[j]);
  }

  /** Appending a row does not move a lookup that already succeeds, nor one
      for a key other than the new row's. */
  lemma IndexOfAppend<T, K>(rows: seq<T>, key: T -> K, x: T, k: K)
    requires IndexOf(rows, key, k).Some? || key(x) != k
    ensures IndexOf(rows + [x], key, k) == IndexOf(rows, key, k)
  {
    var rows' := rows + [x];
    assert forall j :: 0 <= j < |rows| ==> rows'[j] == rows[j];
  }

  /** The freshly appended row is found by its key when nothing else carries it. */
  lemma IndexOfAppendFresh<T, K>(rows: seq<T>, key: T -> K, x: T)
    requires Fresh(rows, key, key(x))
    ensures IndexOf(rows + [x], key, key(x)) == Some(|rows|)
  {
    var rows' := rows + [x];
    assert forall j :: 0 <= j < |rows| ==> rows'[j] == rows[j];
    assert key(rows'[|rows|]) == key(x);
  }
}

=== FILE: bookings.dfy ===
/** Booking creation (price tier, initial status pair, the instant-booking
    shortcut) and the booking list (src/app/api/bookings/route.ts). The
    booking-number generator and the clock are parameters. */
module Bookings {
  import opened Basics
  import opened Http
  import opened Db
  import opened Listing

  const BookingNumberPrefix: string := "BK"
  const DefaultDuration: int := 30

  datatype CreateRequest = CreateRequest(
    clientId: Option<string>,
    consultantId: Option<string>,
    bookingType: Option<BookingType>,    // defaults to SCHEDULED
    scheduledFor: Option<Time>,
    duration: Option<int>,               // defaults to 30
    sessionNotes: Option<string>,
    isFirstSession: Option<bool>)        // defaults to false

  /** The price tier a booking is charged at. */
  function TierPrice(p: Profile, firstSession: bool): int {
    if firstSession then p.firstSessionPrice else p.regularSessionPrice
  }

  /** Whether a create request passes the handler's checks against `s`. */
  predicate Accepted(s: Store, req: CreateRequest) {
    && Truthy(req.clientId) && Truthy(req.consultantId)
    && ProfileOf(s, req.consultantId.value).Some?
    && ProfileOf(s, req.consultantId.value).value.isApproved
  }

  /** POST. `newId` is the database id, `numberSuffix` the generated
      timestamp-and-random part of the booking number, `now` the clock. The
      response carries the booking as first written, before the instant
      shortcut updates it. */
  function Create(s: Store, req: CreateRequest, newId: string, numberSuffix: string, now: Time): (r: Step<Booking>)
    ensures !Truthy(req.clientId) || !Truthy(req.consultantId) ==> r == Step(s, Err(BadRequest))
    ensures Truthy(req.clientId) && Truthy(req.consultantId) && ProfileOf(s, req.consultantId.value).None?
            ==> r == Step(s, Err(NotFound))
    ensures (Truthy(req.clientId) && Truthy(req.consultantId) && ProfileOf(s, req.consultantId.value).Some?
             && !ProfileOf(s, req.consultantId.value).value.isApproved) ==> r == Step(s, Err(BadRequest))
    ensures r.response.Ok? <==> Accepted(s, req)
    ensures r.response.Ok? ==>
      var b := r.response.value;
      var profile := ProfileOf(s, req.consultantId.value).value;
      && r.store == s.(bookings := r.store.bookings)
      && |r.store.bookings| == |s.bookings| + 1
      && r.store.bookings[..|s.bookings|] == s.bookings
      && b.id == newId && b.bookingNumber == BookingNumberPrefix + numberSuffix
      && b.clientId == req.clientId.value && b.consultantId == req.consultantId.value
      && b.price == TierPrice(profile, OrElse(req.isFirstSession, false))
      && b.isFirstSession == OrElse(req.isFirstSession, false)
      && b.bookingType == OrElse(req.bookingType, BookingType.SCHEDULED)
      && b.duration == OrElse(req.duration, DefaultDuration)
      && b.scheduledFor == (if TruthyNumber(req.scheduledFor) then req.scheduledFor else None)
      && b.sessionNotes == req.sessionNotes
      && b.status == BookingStatus.PENDING && b.paymentStatus == PaymentStatus.PENDING
      && b.paymentId.None? && b.sessionId.None?
      && r.store.bookings[|s.bookings|] ==
           if b.bookingType == BookingType.INSTANT
           then b.(status := BookingStatus.CONFIRMED, scheduledFor := Some(now))
           else b
  {
    if !Truthy(req.clientId) || !Truthy(req.consultantId) then Step(s, Err(BadRequest))
    else match ProfileOf(s, req.consultantId.value)
      case None => Step(s, Err(NotFound))
      case Some(profile) =>
        if !profile.isApproved then Step(s, Err(BadRequest))
        else
          var firstSession := OrElse(req.isFirstSession, false);
          var created := Booking(
            newId, BookingNumberPrefix + numberSuffix, req.clientId.value, req.consultantId.value,
            OrElse(req.bookingType, BookingType.SCHEDULED), BookingStatus.PENDING,
            if TruthyNumber(req.scheduledFor) then req.scheduledFor else None,
            OrElse(req.duration, DefaultDuration), TierPrice(profile, firstSession), firstSession,
            req.sessionNotes, PaymentStatus.PENDING, None, None);
          var stored :=
            if created.bookingType == BookingType.INSTANT
            then created.(status := BookingStatus.CONFIRMED, scheduledFor := Some(now))
            else created;
          assert (s.bookings + [stored])[..|s.bookings|] == s.bookings;
          Step(s.(bookings := s.bookings + [stored]), Ok(created))
  }

  /** The instant-booking shortcut: the stored booking is CONFIRMED while its
      payment is still PENDING, and the response still shows it PENDING. */
  lemma InstantBookingConfirmedUnpaid(s: Store, req: CreateRequest, newId: string, numberSuffix: string, now: Time)
    requires Accepted(s, req) && req.bookingType == Some(BookingType.INSTANT)
    ensures var r := Create(s, req, newId, numberSuffix, now);
      && r.response.Ok?
      && var stored := r.store.bookings[|s.bookings|];
      && stored.status == BookingStatus.CONFIRMED && stored.paymentStatus == PaymentStatus.PENDING
      && stored.scheduledFor == Some(now)
      && r.response.value.status == BookingStatus.PENDING
  {
  }

  /** Any other booking is stored exactly as returned: PENDING on both axes. */
  lemma ScheduledBookingPending(s: Store, req: CreateRequest, newId: string, numberSuffix: string, now: Time)
    requires Accepted(s, req) && req.bookingType != Some(BookingType.INSTANT)
    ensures var r := Create(s, req, newId, numberSuffix, now);
      && r.response.Ok?
      && r.store.bookings[|s.bookings|] == r.response.value
      && r.response.value.status == BookingStatus.PENDING
      && r.response.value.paymentStatus == PaymentStatus.PENDING
  {
  }

  datatype ListQuery = ListQuery(
    userId: Option<string>, role: Option<string>, status: Option<BookingStatus>,
    page: int, limit: int)

  predicate Matches(f: PartyFilter, status: Option<BookingStatus>, b: Booking) {
    MatchesParty(f, b.clientId, b.consultantId) && MatchesOptional(status, b.status)
  }

  /** GET: a client sees the bookings where they are the client, a consultant
      those where they are the consultant; any other role is not filtered
      by party. */
  function List(s: Store, q: ListQuery): (r: Response<Listed<Booking>>)
    ensures r.Ok? <==> q.limit == 0 || (q.limit > 0 && q.page >= 1)
    ensures r.Ok? ==> forall b :: b in r.value.items ==>
      && b in s.bookings
      && MatchesOptional(q.status, b.status)
      && (Truthy(q.userId) && q.role == Some("client") ==> b.clientId == q.userId.value)
      && (Truthy(q.userId) && q.role == Some("consultant") ==> b.consultantId == q.userId.value)
    ensures r.Ok? ==> r.value.pages == PageCount(r.value.total, q.limit)
    ensures r.Ok? ==> r.value.page == q.page && r.value.limit == q.limit
    ensures r.Ok? ==> r.value.total == |NewestFirst(s.bookings, b => Matches(PartyFilterFor(q.userId, q.role), q.status, b))|
    ensures r.Ok? ==> IsPage(r.value.items, NewestFirst(s.bookings, b => Matches(PartyFilterFor(q.userId, q.role), q.status, b)),
                             q.page, q.limit)
  {
    var f := PartyFilterFor(q.userId, q.role);
    Paginate(NewestFirst(s.bookings, b => Matches(f, q.status, b)), q.page, q.limit)
  }
}

=== FILE: categories.dfy ===
/** The category listing: one entry per category enum value with its id,
    display name, icon and the number of approved consultants in it, sorted
    by count (descending) and then by name (src/app/api/categories/route.ts).
    The enum's values are a parameter. */
module Categories {
  import opened Basics
  import opened Http
  import opened Db
  import opened Text

  datatype Entry = Entry(id: string, name: string, value: string, count: nat, icon: string)

  const DefaultIcon: string := "\U{1F4CB}"

  const Icons: map<string, string> := map[
    "career" := "\U{1F4BC}",
    "education" := "\U{1F4DA}",
    "finance" := "\U{1F4B0}",
    "business" := "\U{1F3E2}",
    "wellness" := "\U{1F9D8}",
    "technology" := "\U{1F4BB}",
    "legal" := "\U{2696}\U{FE0F}",
    "marketing" := "\U{1F4F1}",
    "other" := "\U{1F4CB}"]

  /** `categoryIcons[id] || '📋'`. */
  function Icon(id: string): (r: string)
    ensures id in Icons ==> r == Icons[id]
    ensures id !in Icons ==> r == DefaultIcon
  {
    if id in Icons then Icons[id] else DefaultIcon
  }

  /** Whether a profile counts towards `category`: approved, in that category
      and owned by a user whose role is CONSULTANT. */
  predicate Counts(s: Store, p: Profile, category: string) {
    && p.category == category
    && p.isApproved
    && UserById(s, p.userId).Some?
    && UserById(s, p.userId).value.role == CONSULTANT
  }

  function CountIn(s: Store, profiles: seq<Profile>, category: string): (n: nat)
    ensures n == |Filter(profiles, p => Counts(s, p, category))| <= |profiles|
    ensures n == 0 <==> forall i :: 0 <= i < |profiles| ==> !Counts(s, profiles[i], category)
  {
    if |profiles| == 0 then 0
    else
      assert forall i :: 1 <= i < |profiles| ==> profiles[i] == profiles[1..][i - 1];
      (if Counts(s, profiles[0], category) then 1 else 0) + CountIn(s, profiles[1..], category)
  }

  function EntryFor(s: Store, value: string): Entry {
    var id := Lower(value);
    Entry(id, Capitalize(value), value, CountIn(s, s.profiles, value), Icon(id))
  }

  function Entries(s: Store, values: seq<string>): (r: seq<Entry>)
    ensures |r| == |values|
    ensures forall i :: 0 <= i < |values| ==> r[i] == EntryFor(s, values[i])
  {
    if |values| == 0 then [] else [EntryFor(s, values[0])] + Entries(s, values[1..])
  }

  /** The comparator `b.count - a.count || a.name.localeCompare(b.name)`
      read as "a may come before b". */
  predicate Before(a: Entry, b: Entry) {
    a.count > b.count || (a.count == b.count && LexLe(a.name, b.name))
  }

  lemma BeforeTotal(a: Entry, b: Entry)
    ensures Before(a, b) || Before(b, a)
  {
    LexLeTotal(a.name, b.name);
  }

  lemma BeforeTransitive(a: Entry, b: Entry, c: Entry)
    requires Before(a, b) && Before(b, c)
    ensures Before(a, c)
  {
    if a.count == b.count == c.count {
      LexLeTransitive(a.name, b.name, c.name);
    }
  }

  predicate Sorted(es: seq<Entry>) {
    forall i, j :: 0 <= i < j < |es| ==> Before(es[i], es[j])
  }

  /** Place `x` in front of the first entry it may precede. */
  function Insert(x: Entry, es: seq<Entry>): (r: seq<Entry>)
    requires Sorted(es)
    ensures Sorted(r)
    ensures multiset(r) == multiset(es) + multiset{x}
  {
    if |es| == 0 then [x]
    else if Before(x, es[0]) then
      assert forall j :: 0 <= j < |es| ==> Before(x, es[j]) by {
        forall j | 0 <= j < |es| ensures Before(x, es[j]) {
          if j > 0 { BeforeTransitive(x, es[0], es[j]); }
        }
      }
      [x] + es
    else
      BeforeTotal(x, es[0]);
      var rest := Insert(x, es[1..]);
      assert es == [es[0]] + es[1..];
      assert forall j :: 0 <= j < |rest| ==> Before(es[0], rest[j]) by {
        forall j | 0 <= j < |rest| ensures Before(es[0], rest[j]) {
          assert rest[j] in multiset(rest);
          assert rest[j] == x || rest[j] in es[1..];
        }
      }
      [es[0]] + rest
  }

  /** Insertion sort; equal entries keep their original order, as the
      (stable) `Array.prototype.sort` keeps them. */
  function Sort(es: seq<Entry>): (r: seq<Entry>)
    ensures Sorted(r)
    ensures multiset(r) == multiset(es)
  {
    if |es| == 0 then []
    else
      assert es == [es[0]] + es[1..];
      Insert(es[0], Sort(es[1..]))
  }

  /** GET: the entries of all category values, sorted. */
  function List(s: Store, values: seq<string>): (r: seq<Entry>)
    ensures Sorted(r)
    ensures multiset(r) == multiset(Entries(s, values))
    ensures forall e :: e in r ==>
              && e.id == Lower(e.value) && e.name == Capitalize(e.value)
              && e.icon == Icon(e.id) && e.count == CountIn(s, s.profiles, e.value)
  {
    var r := Sort(Entries(s, values));
    assert forall e :: e in r ==> e in multiset(Entries(s, values));
    r
  }

  /** The listing has exactly one entry for each occurrence of a value in the
      enumeration, and no other entry. */
  lemma {:induction false} OneEntryPerValue(s: Store, values: seq<string>, v: string)
    ensures multiset(List(s, values))[EntryFor(s, v)] == multiset(values)[v]
  {
    EntriesCount(s, values, v);
  }

  lemma EntriesCount(s: Store, values: seq<string>, v: string)
    ensures multiset(Entries(s, values))[EntryFor(s, v)] == multiset(values)[v]
  {
    var f := w => EntryFor(s, w);
    forall w | f(w) == f(v) ensures w == v {
      EntryForInjective(s, w, v);
    }
    MappedCount(values, Entries(s, values), f, v);
  }

  /** Mapping a sequence element-wise through a function that is injective
      at `x` keeps the number of occurrences of `x`. */
  lemma {:induction false} MappedCount<A, B>(xs: seq<A>, ys: seq<B>, f: A -> B, x: A)
    requires |ys| == |xs| && forall i :: 0 <= i < |xs| ==> ys[i] == f(xs[i])
    requires forall a :: f(a) == f(x) ==> a == x
    ensures multiset(ys)[f(x)] == multiset(xs)[x]
  {
    if |xs| > 0 {
      MappedCount(xs[1..], ys[1..], f, x);
      assert xs == [xs[0]] + xs[1..] && ys == [ys[0]] + ys[1..];
      CountCons(xs[0], xs[1..], x);
      CountCons(ys[0], ys[1..], f(x));
    }
  }

  /** Distinct enumeration values give distinct entries. */
  lemma EntryForInjective(s: Store, a: string, b: string)
    ensures EntryFor(s, a) == EntryFor(s, b) ==> a == b
  {
    assert EntryFor(s, a).value == a && EntryFor(s, b).value == b;
  }

  lemma CountCons<T>(x: T, xs: seq<T>, y: T)
    ensures multiset([x] + xs)[y] == (if x == y then 1 else 0) + multiset(xs)[y]
  {
    assert multiset([x] + xs) == multiset{x} + multiset(xs);
  }

  /** POST: categories are a fixed enumeration, so every destructurable body
      is refused with a 400; a body that does not parse, or parses to `null`,
      throws before that and is answered by the catch block with a 500. The
      store is never written. */
  function Create(s: Store, body: RequestBody): (r: Step<()>)
    ensures r.store == s
    ensures r.response == Err(BadRequest) <==> body == JsonValue
    ensures r.response == Err(ServerError) <==> body != JsonValue
  {
    match body
    case JsonValue => Step(s, Err(BadRequest))
    case _ => Step(s, Err(ServerError))
  }
}

=== FILE: consultants.dfy ===
/** Consultant discovery (approved consultants filtered by category,
    availability and a free-text search, online ones first) and the
    consultant profile upsert (src/app/api/consultants/route.ts). */
module Consultants {
  import opened Basics
  import opened Http
  import opened Db
  import opened Text
  import opened Listing
  import Users

  datatype SearchQuery = SearchQuery(
    category: Option<string>, search: Option<string>, online: Option<string>,
    page: int, limit: int)

  /** A listed consultant: the public user columns and the profile. */
  datatype Card = Card(user: Users.UserView, profile: Profile)

  /** The `OR` of the search: name, bio or skills contain the term, ignoring case. */
  predicate SearchHit(c: Card, term: string) {
    || (c.user.name.Some? && ContainsInsensitive(c.user.name.value, term))
    || (c.profile.bio.Some? && ContainsInsensitive(c.profile.bio.value, term))
    || (c.profile.skills.Some? && ContainsInsensitive(c.profile.skills.value, term))
  }

  /** The `where` clause of the discovery query, evaluated on one card. */
  predicate CardMatches(c: Card, q: SearchQuery) {
    && c.profile.isApproved
    && c.user.role == CONSULTANT
    && (Truthy(q.category) && q.category.value != "all" ==> c.profile.category == q.category.value)
    && (Truthy(q.search) ==> SearchHit(c, q.search.value))
    && (q.online == Some("true") ==> c.profile.isOnline)
  }

  /** The card of every user whose profile satisfies the query, in table
      order: at most one card per user, and every card is some user's. */
  function Cards(s: Store, users: seq<User>, q: SearchQuery): (r: seq<Card>)
    ensures |r| <= |users|
    ensures forall c :: c in r ==> CardMatches(c, q) && c.profile.userId == c.user.id
    ensures forall c :: c in r ==> ProfileOf(s, c.user.id) == Some(c.profile)
    ensures forall c :: c in r ==> exists i :: 0 <= i < |users| && c.user == Users.View(users[i])
    ensures forall i :: 0 <= i < |users| && ProfileOf(s, users[i].id).Some? &&
              CardMatches(Card(Users.View(users[i]), ProfileOf(s, users[i].id).value), q)
              ==> Card(Users.View(users[i]), ProfileOf(s, users[i].id).value) in r
  {
    if |users| == 0 then []
    else
      var rest := Cards(s, users[1..], q);
      var u := users[0];
      assert forall i :: 1 <= i < |users| ==> users[i] == users[1..][i - 1];
      assert forall c :: c in rest ==> exists i :: 0 <= i < |users| && c.user == Users.View(users[i]) by {
        forall c | c in rest ensures exists i :: 0 <= i < |users| && c.user == Users.View(users[i]) {
          var j :| 0 <= j < |users[1..]| && c.user == Users.View(users[1..][j]);
          assert users[j + 1] == users[1..][j];
        }
      }
      match ProfileOf(s, u.id)
      case None => rest
      case Some(p) =>
        var c := Card(Users.View(u), p);
        if CardMatches(c, q) then [c] + rest else rest
  }

  /** With unique user ids, no user is listed twice. */
  lemma {:induction false} CardsDistinct(s: Store, users: seq<User>, q: SearchQuery)
    requires UniqueBy(users, UserKey)
    ensures forall i, j :: 0 <= i < j < |Cards(s, users, q)| ==>
      Cards(s, users, q)[i].user.id != Cards(s, users, q)[j].user.id
  {
    if |users| > 0 {
      var rest := Cards(s, users[1..], q);
      assert UniqueBy(users[1..], UserKey) by {
        forall a, b | 0 <= a < |users[1..]| && 0 <= b < |users[1..]| && a != b
          ensures UserKey(users[1..][a]) != UserKey(users[1..][b])
        {
          assert users[1..][a] == users[a + 1] && users[1..][b] == users[b + 1];
        }
      }
      CardsDistinct(s, users[1..], q);
      forall c | c in rest ensures c.user.id != users[0].id {
        var j :| 0 <= j < |users[1..]| && c.user == Users.View(users[1..][j]);
        assert users[1..][j] == users[j + 1];
        assert UserKey(users[j + 1]) != UserKey(users[0]);
      }
      var r := Cards(s, users, q);
      if r != rest {
        assert r == [Card(Users.View(users[0]), ProfileOf(s, users[0].id).value)] + rest;
        forall i, j | 0 <= i < j < |r| ensures r[i].user.id != r[j].user.id {
          assert r[j] == rest[j - 1] && r[j] in rest;
          if i > 0 {
            assert r[i] == rest[i - 1];
            assert 0 <= i - 1 < j - 1 < |rest|;
          } else {
            assert r[0].user.id == users[0].id;
          }
        }
      }
    }
  }

  predicate IsOnline(c: Card) { c.profile.isOnline }
  predicate IsOffline(c: Card) { !c.profile.isOnline }

  /** `orderBy: { consultantProfile: { isOnline: 'desc' } }`, keeping table
      order among equals. */
  function OnlineFirst(cs: seq<Card>): seq<Card> {
    Filter(cs, IsOnline) + Filter(cs, IsOffline)
  }

  /** The ordering puts every online consultant before every offline one and
      is a permutation of the matching consultants. */
  lemma OnlineFirstOrdered(cs: seq<Card>)
    ensures var r := OnlineFirst(cs);
      && (forall i, j :: 0 <= i < j < |r| && r[j].profile.isOnline ==> r[i].profile.isOnline)
      && multiset(r) == multiset(cs)
  {
    var a, b := Filter(cs, IsOnline), Filter(cs, IsOffline);
    var r := a + b;
    assert forall k :: 0 <= k < |a| ==> r[k] == a[k] && a[k].profile.isOnline;
    assert forall k :: |a| <= k < |r| ==> r[k] == b[k - |a|] && !b[k - |a|].profile.isOnline;
    OnlineFirstPermutes(cs);
  }

  lemma {:induction false} OnlineFirstPermutes(cs: seq<Card>)
    ensures multiset(OnlineFirst(cs)) == multiset(cs)
  {
    if |cs| > 0 {
      OnlineFirstPermutes(cs[1..]);
      assert cs == [cs[0]] + cs[1..];
    }
  }

  /** The category filter is cast to the enum unchecked, so a value that is
      not one of the enum's `categories` makes Prisma reject the query. */
  predicate UnknownCategory(q: SearchQuery, categories: seq<string>) {
    Truthy(q.category) && q.category.value != "all" && q.category.value !in categories
  }

  /** GET: one page of the consultants matching the query, online ones first. */
  function Discover(s: Store, q: SearchQuery, categories: seq<string>): (r: Response<Listed<Card>>)
    ensures r.Ok? <==> !UnknownCategory(q, categories) && (q.limit == 0 || (q.limit > 0 && q.page >= 1))
    ensures r.Err? ==> r == Err(ServerError)
    ensures r.Ok? ==> r.value.page == q.page && r.value.limit == q.limit
    ensures r.Ok? ==> r.value.pages == PageCount(r.value.total, q.limit)
    ensures r.Ok? ==> forall c :: c in r.value.items ==>
      && c.profile.isApproved && c.user.role == CONSULTANT
      && ProfileOf(s, c.user.id) == Some(c.profile)
      && (Truthy(q.category) && q.category.value != "all" ==> c.profile.category == q.category.value)
      && (q.online == Some("true") ==> c.profile.isOnline)
      && (Truthy(q.search) ==> SearchHit(c, q.search.value))
    ensures r.Ok? ==> r.value.total == |Cards(s, s.users, q)|
    ensures r.Ok? ==> IsPage(r.value.items, OnlineFirst(Cards(s, s.users, q)), q.page, q.limit)
    ensures r.Ok? ==> forall i, j :: 0 <= i < j < |r.value.items| && r.value.items[j].profile.isOnline
                        ==> r.value.items[i].profile.isOnline
  {
    if UnknownCategory(q, categories) then Err(ServerError)
    else
      var matching := Cards(s, s.users, q);
      OnlineFirstOrdered(matching);
      assert |OnlineFirst(matching)| == |multiset(OnlineFirst(matching))| == |multiset(matching)| == |matching|;
      Paginate(OnlineFirst(matching), q.page, q.limit)
  }

  datatype ProfileRequest = ProfileRequest(
    userId: Option<string>,
    bio: Option<string>,
    experience: Option<int>,
    qualifications: Option<string>,   // JSON.stringify(qualifications)
    skills: Option<string>,           // JSON.stringify(skills)
    category: Option<string>,
    subcategory: Option<string>,
    firstSessionPrice: Option<int>,
    regularSessionPrice: Option<int>,
    availability: Option<string>)     // JSON.stringify(availability)

  /** The upsert's `create` argument needs the category and both prices, and
      a category must be one of the enum's `categories`; Prisma rejects the
      whole query otherwise, whether or not the profile exists. */
  predicate Writable(req: ProfileRequest, categories: seq<string>) {
    && req.category.Some? && req.category.value in categories
    && req.firstSessionPrice.Some? && req.regularSessionPrice.Some?
  }

  /** An undefined field leaves the stored value (if any) as it is. */
  function Given<T>(field: Option<T>, stored: Option<T>): Option<T> {
    if field.Some? then field else stored
  }

  /** The `update` branch of the upsert: undefined fields keep their stored
      value; approval and the online flag are not touched. */
  function Overwrite(p: Profile, req: ProfileRequest): Profile
    requires req.category.Some? && req.firstSessionPrice.Some? && req.regularSessionPrice.Some?
  {
    p.(bio := Given(req.bio, p.bio),
       experience := Given(req.experience, p.experience),
       qualifications := Given(req.qualifications, p.qualifications),
       skills := Given(req.skills, p.skills),
       category := req.category.value,
       subcategory := Given(req.subcategory, p.subcategory),
       firstSessionPrice := req.firstSessionPrice.value,
       regularSessionPrice := req.regularSessionPrice.value,
       availability := Given(req.availability, p.availability),
       profileCompleted := true)
  }

  /** The `create` branch: a new, not yet approved, offline profile. */
  function NewProfile(userId: string, req: ProfileRequest): Profile
    requires req.category.Some? && req.firstSessionPrice.Some? && req.regularSessionPrice.Some?
  {
    Profile(userId, req.bio, req.experience, req.qualifications, req.skills, req.category.value,
            req.subcategory, req.firstSessionPrice.value, req.regularSessionPrice.value, req.availability,
            false, false, true)
  }

  /** The profile the upsert leaves for a user whose stored profile was
      `stored`: every field the request gives is written, every other field
      keeps the stored value (or is empty on creation), approval and the
      online flag are kept (false on creation), and the profile is complete. */
  predicate WrittenFrom(p: Profile, uid: string, req: ProfileRequest, stored: Option<Profile>) {
    && p.userId == uid
    && req.category == Some(p.category)
    && req.firstSessionPrice == Some(p.firstSessionPrice)
    && req.regularSessionPrice == Some(p.regularSessionPrice)
    && p.bio == Given(req.bio, if stored.Some? then stored.value.bio else None)
    && p.experience == Given(req.experience, if stored.Some? then stored.value.experience else None)
    && p.qualifications == Given(req.qualifications, if stored.Some? then stored.value.qualifications else None)
    && p.skills == Given(req.skills, if stored.Some? then stored.value.skills else None)
    && p.subcategory == Given(req.subcategory, if stored.Some? then stored.value.subcategory else None)
    && p.availability == Given(req.availability, if stored.Some? then stored.value.availability else None)
    && p.isApproved == (stored.Some? && stored.value.isApproved)
    && p.isOnline == (stored.Some? && stored.value.isOnline)
    && p.profileCompleted
  }

  /** POST: create or update the profile of a consultant user. A missing
      `userId` makes the lookup itself fail; `categories` are the values of
      the category enum. */
  function Upsert(s: Store, req: ProfileRequest, categories: seq<string>): (r: Step<Profile>)
    ensures req.userId.None? ==> r == Step(s, Err(ServerError))
    ensures req.userId.Some? && UserById(s, req.userId.value).None? ==> r == Step(s, Err(NotFound))
    ensures (req.userId.Some? && UserById(s, req.userId.value).Some? &&
             UserById(s, req.userId.value).value.role != CONSULTANT) ==> r == Step(s, Err(BadRequest))
    ensures (req.userId.Some? && UserById(s, req.userId.value).Some? &&
             UserById(s, req.userId.value).value.role == CONSULTANT && !Writable(req, categories))
            ==> r == Step(s, Err(ServerError))
    ensures r.response.Ok? <==> req.userId.Some? && UserById(s, req.userId.value).Some? &&
                                UserById(s, req.userId.value).value.role == CONSULTANT && Writable(req, categories)
    ensures r.response.Ok? ==>
      var uid := req.userId.value;
      var p := r.response.value;
      && r.store == s.(profiles := r.store.profiles)
      && ProfileOf(r.store, uid) == Some(p)
      && WrittenFrom(p, uid, req, ProfileOf(s, uid))
      && |r.store.profiles| == |s.profiles| + (if ProfileOf(s, uid).Some? then 0 else 1)
      && forall k :: k != uid ==> ProfileOf(r.store, k) == ProfileOf(s, k)
  {
    if req.userId.None? then Step(s, Err(ServerError))
    else
      var uid := req.userId.value;
      match UserById(s, uid)
      case None => Step(s, Err(NotFound))
      case Some(u) =>
        if u.role != CONSULTANT then Step(s, Err(BadRequest))
        else if !Writable(req, categories) then Step(s, Err(ServerError))
        else match IndexOf(s.profiles, ProfileKey, uid)
          case Some(i) =>
            var p := Overwrite(s.profiles[i], req);
            var s' := s.(profiles := s.profiles[i := p]);
            IndexOfUpdate(s.profiles, ProfileKey, i, p, uid);
            assert forall k :: IndexOf(s'.profiles, ProfileKey, k) == IndexOf(s.profiles, ProfileKey, k) by {
              forall k { IndexOfUpdate(s.profiles, ProfileKey, i, p, k); }
            }
            Step(s', Ok(p))
          case None =>
            var p := NewProfile(uid, req);
            var s' := s.(profiles := s.profiles + [p]);
            IndexOfAppendFresh(s.profiles, ProfileKey, p);
            assert forall k :: k != uid ==> IndexOf(s'.profiles, ProfileKey, k) == IndexOf(s.profiles, ProfileKey, k) by {
              forall k | k != uid { IndexOfAppend(s.profiles, ProfileKey, p, k); }
            }
            Step(s', Ok(p))
  }

  /** Sending the same profile again changes nothing: the second request
      takes the update branch and rewrites the values the first one wrote. */
  lemma UpsertIdempotent(s: Store, req: ProfileRequest, categories: seq<string>)
    requires Upsert(s, req, categories).response.Ok?
    ensures var s' := Upsert(s, req, categories).store;
      Upsert(s', req, categories) == Step(s', Ok(Upsert(s, req, categories).response.value))
  {
    var uid := req.userId.value;
    var s' := Upsert(s, req, categories).store;
    assert UserById(s', uid) == UserById(s, uid);
  }

  /** Upserting never creates a second profile for the same user. */
  lemma UpsertKeepsOneProfilePerUser(s: Store, req: ProfileRequest, categories: seq<string>)
    requires UniqueBy(s.profiles, ProfileKey)
    ensures UniqueBy(Upsert(s, req, categories).store.profiles, ProfileKey)
  {
    var r := Upsert(s, req, categories);
    if r.response.Ok? {
      var uid := req.userId.value;
      match IndexOf(s.profiles, ProfileKey, uid)
      case Some(i) =>
        UniqueByUpdate(s.profiles, ProfileKey, i, Overwrite(s.profiles[i], req));
      case None =>
        UniqueByAppend(s.profiles, ProfileKey, NewProfile(uid, req));
    }
  }
}

=== FILE: db.dfy ===
/** The persisted store: one table per entity of the marketplace schema, each
    a sequence of rows in insertion order, and the key functions used to look
    rows up. Enum values carry the names the handlers use. */
module Db {
  import opened Basics
  import opened Http

  datatype UserRole = CLIENT | CONSULTANT | ADMIN
  datatype BookingType = INSTANT | SCHEDULED
  datatype BookingStatus = PENDING | CONFIRMED | COMPLETED | CANCELLED | NO_SHOW
  datatype PaymentStatus = PENDING | COMPLETED | FAILED | REFUNDED
  datatype SessionStatus = SCHEDULED | ACTIVE | COMPLETED
  datatype EarningStatus = PENDING | HELD | PAID

  /** A point in time, as the milliseconds of `new Date()`. */
  type Time = int

  datatype User = User(
    id: string,
    email: string,
    password: string,          // the bcrypt hash, never the plaintext
    name: Option<string>,
    phone: Option<string>,
    avatar: Option<string>,
    role: UserRole)

  /** A consultant's profile, owned by the user `userId`. The JSON-encoded
      columns (qualifications, skills, availability) are opaque text. */
  datatype Profile = Profile(
    userId: string,
    bio: Option<string>,
    experience: Option<int>,
    qualifications: Option<string>,
    skills: Option<string>,
    category: string,
    subcategory: Option<string>,
    firstSessionPrice: int,
    regularSessionPrice: int,
    availability: Option<string>,
    isApproved: bool,
    isOnline: bool,
    profileCompleted: bool)

  /** A booking has two independent status axes: `status` (the workflow) and
      `paymentStatus`. */
  datatype Booking = Booking(
    id: string,
    bookingNumber: string,
    clientId: string,
    consultantId: string,
    bookingType: BookingType,
    status: BookingStatus,
    scheduledFor: Option<Time>,
    duration: int,
    price: int,
    isFirstSession: bool,
    sessionNotes: Option<string>,
    paymentStatus: PaymentStatus,
    paymentId: Option<string>,   // the gateway's transaction id
    sessionId: Option<string>)   // the internal id of the session created from it

  /** A live session; `sessionId` is the external join code, `id` the row id. */
  datatype Session = Session(
    id: string,
    sessionId: string,
    bookingId: string,
    clientId: string,
    consultantId: string,
    status: SessionStatus,
    startedAt: Option<Time>,
    sessionUrl: Option<string>)

  datatype Review = Review(
    id: string,
    bookingId: string,
    sessionId: Option<string>,
    clientId: string,
    consultantId: string,
    rating: int,
    text: Option<string>,
    isPublic: bool)

  /** A consultant's share of a payment: `amount` after the platform's
      `commission`, out of `totalAmount`. */
  datatype Earning = Earning(
    id: string,
    consultantId: string,
    bookingId: string,
    amount: int,
    commission: int,
    totalAmount: int,
    status: EarningStatus)

  datatype Store = Store(
    users: seq<User>,
    profiles: seq<Profile>,
    bookings: seq<Booking>,
    sessions: seq<Session>,
    reviews: seq<Review>,
    earnings: seq<Earning>)

  /** One handler invocation: the store after the request and the response. */
  datatype Step<T> = Step(store: Store, response: Response<T>)

  // Key columns.
  function UserKey(u: User): string { u.id }
  function EmailKey(u: User): string { u.email }
  function ProfileKey(p: Profile): string { p.userId }
  function BookingKey(b: Booking): string { b.id }
  function PaymentKey(b: Booking): Option<string> { b.paymentId }
  function SessionKey(x: Session): string { x.id }
  function SessionCodeKey(x: Session): string { x.sessionId }
  function SessionBookingKey(x: Session): string { x.bookingId }
  function ReviewKey(r: Review): string { r.id }
  function ReviewBookingKey(r: Review): string { r.bookingId }
  function EarningKey(e: Earning): string { e.id }
  function EarningBookingKey(e: Earning): string { e.bookingId }

  /** The profile owned by `userId`, if any. */
  function ProfileOf(s: Store, userId: string): Option<Profile> {
    match IndexOf(s.profiles, ProfileKey, userId)
    case None => None
    case Some(i) => Some(s.profiles[i])
  }

  /** The user with id `id`, if any. */
  function UserById(s: Store, id: string): Option<User> {
    match IndexOf(s.users, UserKey, id)
    case None => None
    case Some(i) => Some(s.users[i])
  }

  /** The position of the booking with id `id`, if any. */
  function BookingIndex(s: Store, id: string): Option<nat> {
    IndexOf(s.bookings, BookingKey, id)
  }
}

=== FILE: http.dfy ===
/** Handler outcomes: a JSON body on success or an `{ error }` body with an
    HTTP status. */
module Http {

  datatype HttpError = BadRequest | Forbidden | NotFound | ServerError {
    function Code(): int {
      match this
      case BadRequest => 400
      case Forbidden => 403
      case NotFound => 404
      case ServerError => 500
    }
  }

  datatype Response<T> = Ok(value: T) | Err(error: HttpError)

  /** What `await request.json()` yields: a parse failure throws, a `null`
      body parses but cannot be destructured, anything else can. */
  datatype RequestBody = Unparsable | JsonNull | JsonValue
}

=== FILE: lifecycle.dfy ===
/** The booking lifecycle across handlers: an invariant of the whole store
    that every write handler preserves, and the request sequences that show
    how the two status axes of a booking can drift apart. */
module Lifecycle {
  import opened Basics
  import opened Http
  import opened Db
  import Users
  import Consultants
  import Bookings
  import Payments
  import Sessions
  import Reviews

  function IsConfirmedOrDone(s: BookingStatus): bool {
    s == BookingStatus.CONFIRMED || s == BookingStatus.COMPLETED
  }

  /** The (status, paymentStatus) pairs the handlers can produce. A booking
      is CONFIRMED or COMPLETED without a completed payment only by the
      instant shortcut; a completed payment always has its transaction id,
      and a COMPLETED booking always points at its session. */
  predicate BookingConsistent(b: Booking) {
    && b.status != BookingStatus.NO_SHOW
    && (b.paymentStatus == PaymentStatus.COMPLETED ==> IsConfirmedOrDone(b.status) && b.paymentId.Some?)
    && (b.paymentStatus == PaymentStatus.REFUNDED ==> b.status == BookingStatus.CANCELLED)
    && (b.status == BookingStatus.PENDING ==>
          b.paymentStatus == PaymentStatus.PENDING || b.paymentStatus == PaymentStatus.FAILED)
    && (b.status == BookingStatus.CANCELLED ==>
          b.paymentStatus == PaymentStatus.REFUNDED || b.paymentStatus == PaymentStatus.FAILED)
    && (IsConfirmedOrDone(b.status) && b.paymentStatus != PaymentStatus.COMPLETED ==>
          b.bookingType == BookingType.INSTANT)
    && (b.status == BookingStatus.COMPLETED ==> b.sessionId.Some?)
  }

  /** An earning splits its total into the consultant's amount and a fifth
      (rounded down) of commission, and is never marked paid out. */
  predicate EarningSound(e: Earning) {
    && e.commission == Payments.Commission(e.totalAmount)
    && e.amount + e.commission == e.totalAmount
    && e.status != EarningStatus.PAID
  }

  ghost predicate KeysUnique(s: Store) {
    && UniqueBy(s.users, UserKey) && UniqueBy(s.users, EmailKey)
    && UniqueBy(s.profiles, ProfileKey)
    && UniqueBy(s.bookings, BookingKey)
    && UniqueBy(s.sessions, SessionKey) && UniqueBy(s.sessions, SessionCodeKey)
    && UniqueBy(s.sessions, SessionBookingKey)
    && UniqueBy(s.reviews, ReviewKey) && UniqueBy(s.reviews, ReviewBookingKey)
    && UniqueBy(s.earnings, EarningKey)
  }

  predicate BookingsConsistent(bookings: seq<Booking>) {
    forall i :: 0 <= i < |bookings| ==> BookingConsistent(bookings[i])
  }

  /** Each session's booking exists and points back at that session. */
  predicate SessionsLinked(s: Store) {
    forall k :: 0 <= k < |s.sessions| ==>
      && BookingIndex(s, s.sessions[k].bookingId).Some?
      && s.bookings[BookingIndex(s, s.sessions[k].bookingId).value].sessionId == Some(s.sessions[k].id)
  }

  /** Each review's booking exists and belongs to the reviewer. */
  predicate ReviewsGrounded(s: Store) {
    forall k :: 0 <= k < |s.reviews| ==>
      && BookingIndex(s, s.reviews[k].bookingId).Some?
      && s.bookings[BookingIndex(s, s.reviews[k].bookingId).value].clientId == s.reviews[k].clientId
  }

  /** Each earning is sound and its booking exists. */
  predicate EarningsSound(s: Store) {
    forall k :: 0 <= k < |s.earnings| ==>
      EarningSound(s.earnings[k]) && BookingIndex(s, s.earnings[k].bookingId).Some?
  }

  ghost predicate Valid(s: Store) {
    && KeysUnique(s)
    && BookingsConsistent(s.bookings)
    && SessionsLinked(s)
    && ReviewsGrounded(s)
    && EarningsSound(s)
  }

  lemma EmptyStoreValid()
    ensures Valid(Store([], [], [], [], [], []))
  {
  }

  // ---------------------------------------------------------------------
  // Moving rows without moving lookups.

  /** Rewriting a booking in place keeps its id, so every lookup by id
      finds the same position. */
  lemma BookingLookupsStable(s: Store, i: nat, b: Booking)
    requires i < |s.bookings| && b.id == s.bookings[i].id
    ensures forall id :: BookingIndex(s.(bookings := s.bookings[i := b]), id) == BookingIndex(s, id)
  {
    forall id ensures BookingIndex(s.(bookings := s.bookings[i := b]), id) == BookingIndex(s, id) {
      IndexOfUpdate(s.bookings, BookingKey, i, b, id);
    }
  }

  /** A booking rewrite that keeps id, client and session pointer, and is
      itself consistent, keeps the whole store valid. */
  lemma {:induction false} BookingRewriteValid(s: Store, i: nat, b: Booking)
    requires Valid(s) && i < |s.bookings|
    requires b.id == s.bookings[i].id && b.clientId == s.bookings[i].clientId
    requires b.sessionId == s.bookings[i].sessionId
    requires BookingConsistent(b)
    ensures Valid(s.(bookings := s.bookings[i := b]))
  {
    var s' := s.(bookings := s.bookings[i := b]);
    BookingLookupsStable(s, i, b);
    UniqueByUpdate(s.bookings, BookingKey, i, b);
    assert forall j :: 0 <= j < |s.bookings| ==>
      s'.bookings[j].clientId == s.bookings[j].clientId && s'.bookings[j].sessionId == s.bookings[j].sessionId;
  }

  // ---------------------------------------------------------------------
  // One lemma per write handler.

  lemma UsersCreateValid(s: Store, req: Users.CreateRequest, newId: string, hash: string -> string)
    requires Valid(s) && Fresh(s.users, UserKey, newId)
    ensures Valid(Users.Create(s, req, newId, hash).store)
  {
    var r := Users.Create(s, req, newId, hash);
    if r.response.Ok? {
      Users.CreateKeepsEmailsUnique(s, req, newId, hash);
      var u := r.store.users[|s.users|];
      assert r.store.users == s.users + [u];
      UniqueByAppend(s.users, UserKey, u);
    }
  }

  lemma UsersUpdateValid(s: Store, req: Users.UpdateRequest)
    requires Valid(s)
    ensures Valid(Users.Update(s, req).store)
  {
    Users.UpdateKeepsKeysUnique(s, req);
  }

  lemma ConsultantsUpsertValid(s: Store, req: Consultants.ProfileRequest, categories: seq<string>)
    requires Valid(s)
    ensures Valid(Consultants.Upsert(s, req, categories).store)
  {
    Consultants.UpsertKeepsOneProfilePerUser(s, req, categories);
  }

  lemma {:induction false} BookingsCreateValid(s: Store, req: Bookings.CreateRequest, newId: string,
                                               numberSuffix: string, now: Time)
    requires Valid(s) && Fresh(s.bookings, BookingKey, newId)
    ensures Valid(Bookings.Create(s, req, newId, numberSuffix, now).store)
  {
    var r := Bookings.Create(s, req, newId, numberSuffix, now);
    if r.response.Ok? {
      var b := r.store.bookings[|s.bookings|];
      assert r.store.bookings == s.bookings + [b];
      UniqueByAppend(s.bookings, BookingKey, b);
      forall id | BookingIndex(s, id).Some? ensures BookingIndex(r.store, id) == BookingIndex(s, id) {
        IndexOfAppend(s.bookings, BookingKey, b, id);
      }
      assert forall j :: 0 <= j < |s.bookings| ==> r.store.bookings[j] == s.bookings[j];
    }
  }

  lemma {:induction false} ChargeValid(s: Store, req: Payments.ChargeRequest, gateway: Payments.Gateway,
                                       earningId: string)
    requires Valid(s) && Fresh(s.earnings, EarningKey, earningId)
    ensures Valid(Payments.Charge(s, req, gateway, earningId).store)
  {
    var r := Payments.Charge(s, req, gateway, earningId);
    if Payments.Chargeable(s, req) {
      var i := BookingIndex(s, req.bookingId.value).value;
      var b := s.bookings[i];
      if gateway.Declined? {
        BookingRewriteValid(s, i, b.(paymentStatus := PaymentStatus.FAILED));
      } else {
        var paid := r.store.bookings[i];
        BookingRewriteValid(s, i, paid);
        var s1 := s.(bookings := s.bookings[i := paid]);
        var e := Payments.EarningFor(earningId, b, req.amount.value);
        assert r.store == s1.(earnings := s1.earnings + [e]);
        UniqueByAppend(s1.earnings, EarningKey, e);
        BookingLookupsStable(s, i, paid);
        assert BookingIndex(s1, e.bookingId) == Some(i);
        assert forall k :: 0 <= k < |s1.earnings| ==> r.store.earnings[k] == s1.earnings[k];
      }
    }
  }

  lemma {:induction false} RefundValid(s: Store, req: Payments.RefundRequest, refundSuffix: string)
    requires Valid(s)
    ensures Valid(Payments.Refund(s, req, refundSuffix).store)
  {
    var r := Payments.Refund(s, req, refundSuffix);
    if r.response.Ok? {
      var i := Payments.RefundTarget(s, req).value;
      var b := s.bookings[i];
      var refunded := b.(paymentStatus := PaymentStatus.REFUNDED, status := BookingStatus.CANCELLED);
      BookingRewriteValid(s, i, refunded);
      var s1 := s.(bookings := s.bookings[i := refunded]);
      match IndexOf(s.earnings, EarningBookingKey, b.id)
      case None =>
        assert r.store == s1;
      case Some(k) =>
        assert r.store == s1.(earnings := s1.earnings[k := s1.earnings[k].(status := EarningStatus.HELD)]);
        EarningHoldValid(s1, k);
    }
  }

  /** Holding an earning keeps its split and its booking. */
  lemma EarningHoldValid(s: Store, k: nat)
    requires Valid(s) && k < |s.earnings|
    ensures Valid(s.(earnings := s.earnings[k := s.earnings[k].(status := EarningStatus.HELD)]))
  {
    var e := s.earnings[k].(status := EarningStatus.HELD);
    UniqueByUpdate(s.earnings, EarningKey, k, e);
  }

  /** Linking a fresh session to a CONFIRMED booking, which becomes
      COMPLETED and points at the session, keeps the store valid. */
  lemma {:induction false} SessionLinkValid(s: Store, i: nat, x: Session)
    requires Valid(s)
    requires BookingIndex(s, x.bookingId) == Some(i) && s.bookings[i].status == BookingStatus.CONFIRMED
    requires Fresh(s.sessions, SessionKey, x.id) && Fresh(s.sessions, SessionCodeKey, x.sessionId)
    requires Fresh(s.sessions, SessionBookingKey, x.bookingId)
    ensures Valid(s.(bookings := s.bookings[i := s.bookings[i].(sessionId := Some(x.id), status := BookingStatus.COMPLETED)],
                     sessions := s.sessions + [x]))
  {
    var done := s.bookings[i].(sessionId := Some(x.id), status := BookingStatus.COMPLETED);
    var s1 := s.(bookings := s.bookings[i := done]);
    var s2 := s1.(sessions := s.sessions + [x]);
    BookingLookupsStable(s, i, done);
    UniqueByUpdate(s.bookings, BookingKey, i, done);
    // The new session's keys are all unused.
    UniqueByAppend(s.sessions, SessionKey, x);
    UniqueByAppend(s.sessions, SessionCodeKey, x);
    UniqueByAppend(s.sessions, SessionBookingKey, x);
    assert KeysUnique(s2);
    assert BookingsConsistent(s2.bookings) by {
      assert BookingConsistent(done);
    }
    // Older sessions belong to other bookings, so their links are untouched.
    assert SessionsLinked(s2) by {
      forall k | 0 <= k < |s.sessions|
        ensures BookingIndex(s1, s.sessions[k].bookingId).Some?
        ensures s1.bookings[BookingIndex(s1, s.sessions[k].bookingId).value].sessionId == Some(s.sessions[k].id)
      {
        assert SessionBookingKey(s.sessions[k]) != x.bookingId;
      }
      assert forall k :: 0 <= k < |s.sessions| ==> s2.sessions[k] == s.sessions[k];
      assert s2.sessions[|s.sessions|] == x && BookingIndex(s1, x.bookingId) == Some(i);
    }
    assert forall j :: 0 <= j < |s.bookings| ==> s1.bookings[j].clientId == s.bookings[j].clientId;
  }

  lemma {:induction false} SessionsCreateValid(s: Store, req: Sessions.CreateRequest, newId: string,
                                               codeSuffix: string, now: Time)
    requires Valid(s)
    ensures Valid(Sessions.Create(s, req, newId, codeSuffix, now).store)
  {
    var r := Sessions.Create(s, req, newId, codeSuffix, now);
    if r.response.Ok? {
      var i := BookingIndex(s, req.bookingId.value).value;
      var x := r.store.sessions[|s.sessions|];
      assert r.store == s.(bookings := s.bookings[i := s.bookings[i].(sessionId := Some(x.id), status := BookingStatus.COMPLETED)],
                           sessions := s.sessions + [x]);
      SessionLinkValid(s, i, x);
    }
  }

  /** Rewriting a session in place, keeping its id, code and booking, keeps
      the store valid. */
  lemma {:induction false} SessionRewriteValid(s: Store, i: nat, x: Session)
    requires Valid(s) && i < |s.sessions|
    requires x.id == s.sessions[i].id && x.sessionId == s.sessions[i].sessionId
    requires x.bookingId == s.sessions[i].bookingId
    ensures Valid(s.(sessions := s.sessions[i := x]))
  {
    UniqueByUpdate(s.sessions, SessionKey, i, x);
    UniqueByUpdate(s.sessions, SessionCodeKey, i, x);
    UniqueByUpdate(s.sessions, SessionBookingKey, i, x);
    var s' := s.(sessions := s.sessions[i := x]);
    assert forall k :: 0 <= k < |s.sessions| ==>
      s'.sessions[k].id == s.sessions[k].id && s'.sessions[k].bookingId == s.sessions[k].bookingId;
  }

  lemma {:induction false} SessionsJoinValid(s: Store, req: Sessions.JoinRequest, now: Time)
    requires Valid(s)
    ensures Valid(Sessions.Join(s, req, now).store)
  {
    var r := Sessions.Join(s, req, now);
    if r.response.Ok? {
      var i := IndexOf(s.sessions, SessionCodeKey, req.sessionId.value).value;
      var x := s.sessions[i];
      if x.status == SessionStatus.SCHEDULED {
        SessionRewriteValid(s, i, x.(status := SessionStatus.ACTIVE, startedAt := Some(now)));
      }
    }
  }

  lemma {:induction false} ReviewsCreateValid(s: Store, req: Reviews.CreateRequest, newId: string)
    requires Valid(s) && Fresh(s.reviews, ReviewKey, newId)
    ensures Valid(Reviews.Create(s, req, newId).store)
  {
    var r := Reviews.Create(s, req, newId);
    if r.response.Ok? {
      var v := r.response.value;
      Reviews.CreateKeepsOneReviewPerBooking(s, req, newId);
      UniqueByAppend(s.reviews, ReviewKey, v);
      assert forall k :: 0 <= k < |s.reviews| ==> r.store.reviews[k] == s.reviews[k];
      assert BookingIndex(s, v.bookingId).Some?;
    }
  }
}

=== FILE: listing.dfy ===
/** The list endpoints' shared arithmetic: the party filter derived from
    `userId` and `role`, `skip = (page - 1) * limit`, the window
    `skip`/`take` over the matching rows, and `pages = Math.ceil(total / limit)`. */
module Listing {
  import opened Basics
  import opened Http

  /** `where.clientId` / `where.consultantId` as the bookings and sessions
      lists build them. */
  datatype PartyFilter = PartyFilter(clientId: Option<string>, consultantId: Option<string>)

  function PartyFilterFor(userId: Option<string>, role: Option<string>): (f: PartyFilter)
    ensures f.clientId.Some? <==> Truthy(userId) && role == Some("client")
    ensures f.consultantId.Some? <==> Truthy(userId) && role == Some("consultant")
    ensures f.clientId.Some? ==> f.clientId == userId
    ensures f.consultantId.Some? ==> f.consultantId == userId
  {
    if Truthy(userId) && Truthy(role) then
      if role.value == "client" then PartyFilter(userId, None)
      else if role.value == "consultant" then PartyFilter(None, userId)
      else PartyFilter(None, None)
    else PartyFilter(None, None)
  }

  predicate MatchesParty(f: PartyFilter, clientId: string, consultantId: string) {
    && (f.clientId.Some? ==> clientId == f.clientId.value)
    && (f.consultantId.Some? ==> consultantId == f.consultantId.value)
  }

  /** An optional equality filter: absent means "any". */
  predicate MatchesOptional<T(==)>(filter: Option<T>, value: T) {
    filter.Some? ==> value == filter.value
  }

  function Skip(page: int, limit: int): int {
    (page - 1) * limit
  }

  /** `Math.ceil(total / limit)`; None stands for the non-finite result of a
      zero limit (`Infinity` or `NaN`, both sent as `null`). */
  function PageCount(total: nat, limit: int): Option<int> {
    if limit == 0 then None
    else if limit > 0 then Some((total + limit - 1) / limit)
    else Some(-(total / -limit))
  }

  /** The page count is the ceiling of `total / limit`: the least integer `p`
      with `p >= total / limit`, for either sign of `limit`. */
  lemma PageCountIsCeiling(total: nat, limit: int)
    ensures PageCount(total, limit).None? <==> limit == 0
    ensures limit > 0 ==> var p := PageCount(total, limit).value;
      (p - 1) * limit < total <= p * limit
    ensures limit < 0 ==> var p := PageCount(total, limit).value;
      p * limit <= total < (p - 1) * limit
  {
    if limit > 0 {
      var p := (total + limit - 1) / limit;
      var m := (total + limit - 1) % limit;
      assert total + limit - 1 == p * limit + m;
      assert (p - 1) * limit == p * limit - limit;
    } else if limit < 0 {
      var n := -limit;
      var q := total / n;
      var m := total % n;
      assert total == q * n + m;
      assert -q * limit == q * n;
      assert (-q - 1) * limit == q * n + n;
    }
  }

  /** The rows Prisma returns for `skip`/`take` over an ordered result; a
      negative skip or take is answered with a server error. */
  function Window<T>(rows: seq<T>, skip: int, take: int): (r: Response<seq<T>>)
    ensures r.Ok? <==> skip >= 0 && take >= 0
    ensures r.Ok? ==> |r.value| <= take
    ensures r.Ok? ==> |r.value| == 0 || skip + |r.value| <= |rows|
    ensures r.Ok? ==> |r.value| == if skip >= |rows| then 0 else if skip + take <= |rows| then take else |rows| - skip
    ensures r.Ok? ==> forall k :: 0 <= k < |r.value| ==> r.value[k] == rows[skip + k]
  {
    if skip < 0 || take < 0 then Err(ServerError)
    else if skip >= |rows| then Ok([])
    else if skip + take <= |rows| then Ok(rows[skip..skip + take])
    else Ok(rows[skip..])
  }

  /** How many of `total` rows page `page` shows at `limit` per page. */
  function PageLength(total: nat, page: int, limit: int): int {
    var skip := Skip(page, limit);
    if skip >= total then 0 else if total - skip < limit then total - skip else limit
  }

  /** `items` is page `page` of `matching`: the rows from position
      `(page - 1) * limit` on, as many as `limit` allows and `matching` holds. */
  ghost predicate IsPage<T>(items: seq<T>, matching: seq<T>, page: int, limit: int) {
    && |items| == PageLength(|matching|, page, limit)
    && forall k :: 0 <= k < |items| ==>
         0 <= Skip(page, limit) + k < |matching| && items[k] == matching[Skip(page, limit) + k]
  }

  /** A page is determined by the rows, the page number and the limit. */
  lemma PageIsDetermined<T>(a: seq<T>, b: seq<T>, matching: seq<T>, page: int, limit: int)
    requires IsPage(a, matching, page, limit) && IsPage(b, matching, page, limit)
    ensures a == b
  {
  }

  /** `{ items, pagination: { page, limit, total, pages } }`. */
  datatype Listed<T> = Listed(items: seq<T>, page: int, limit: int, total: nat, pages: Option<int>)

  /** One page of `matching` (already filtered and ordered), with the count
      of all matching rows. */
  function Paginate<T>(matching: seq<T>, page: int, limit: int): (r: Response<Listed<T>>)
    ensures r.Ok? <==> limit == 0 || (limit > 0 && page >= 1)
    ensures r.Ok? ==> r.value.page == page && r.value.limit == limit
    ensures r.Ok? ==> r.value.total == |matching| && r.value.pages == PageCount(|matching|, limit)
    ensures r.Ok? ==> forall x :: x in r.value.items ==> x in matching
    ensures r.Ok? ==> |r.value.items| <= limit
    ensures r.Ok? ==> IsPage(r.value.items, matching, page, limit)
  {
    assert limit > 0 && page < 1 ==> Skip(page, limit) < 0 by {
      if limit > 0 && page < 1 { assert (page - 1) * limit <= -1 * limit; }
    }
    match Window(matching, Skip(page, limit), limit)
    case Err(e) => Err(e)
    case Ok(items) => Ok(Listed(items, page, limit, |matching|, PageCount(|matching|, limit)))
  }

  /** The rows satisfying `p`, newest first (`orderBy: { createdAt: 'desc' }`
      over an insertion-ordered table). */
  function NewestFirst<T>(rows: seq<T>, p: T -> bool): (r: seq<T>)
    ensures |r| <= |rows|
    ensures forall i :: 0 <= i < |r| ==> r[i] in rows && p(r[i])
    ensures forall i :: 0 <= i < |rows| && p(rows[i]) ==> rows[i] in r
  {
    ReverseMembers(rows);
    var r := Filter(Reverse(rows), p);
    assert forall i :: 0 <= i < |rows| ==> rows[i] in Reverse(rows);
    r
  }

  /** The row written last is listed first when it matches, ahead of every
      older match, which keep their order. */
  lemma NewestFirstAppend<T>(rows: seq<T>, p: T -> bool, x: T)
    ensures NewestFirst(rows + [x], p) == (if p(x) then [x] else []) + NewestFirst(rows, p)
  {
    var rows' := rows + [x];
    assert Reverse(rows') == [x] + Reverse(rows) by {
      assert forall i :: 0 <= i < |rows'| ==> Reverse(rows')[i] == ([x] + Reverse(rows))[i];
    }
    FilterConcat([x], Reverse(rows), p);
  }
}

=== FILE: payments.dfy ===
/** Charging a booking through the payment gateway, with the 20 % platform
    commission split into an earning, and refunding it
    (src/app/api/payments/route.ts). The gateway's outcome and the generated
    transaction ids are parameters. */
module Payments {
  import opened Basics
  import opened Http
  import opened Db

  const TransactionPrefix: string := "TXN"
  const RefundPrefix: string := "REF"
  const DefaultRefundReason: string := "Customer requested refund"

  /** The platform keeps 20 %: `Math.floor(amount * 0.2)`. */
  function Commission(amount: int): int {
    amount / 5
  }

  /** Commission is the floor of a fifth of the amount. */
  lemma CommissionIsFloorOfFifth(amount: int)
    ensures 5 * Commission(amount) <= amount < 5 * Commission(amount) + 5
  {
  }

  /** The consultant keeps the rest; for a non-negative amount both parts are
      non-negative and the commission is at most the amount. */
  lemma CommissionSplit(amount: int)
    ensures (amount - Commission(amount)) + Commission(amount) == amount
    ensures amount >= 0 ==> 0 <= Commission(amount) <= amount - Commission(amount) <= amount
  {
  }

  /** Card, UPI or bank details; only their presence matters here. */
  datatype PaymentDetails = PaymentDetails(fields: map<string, string>)

  datatype ChargeRequest = ChargeRequest(
    bookingId: Option<string>,
    amount: Option<int>,
    paymentMethod: Option<string>,
    paymentDetails: Option<PaymentDetails>)

  /** What the mock gateway answers: approval with a transaction id suffix, or
      a decline. */
  datatype Gateway = Approved(transactionSuffix: string) | Declined

  datatype Receipt = Receipt(transactionId: string, amount: int, booking: Booking)

  predicate HasRequiredFields(req: ChargeRequest) {
    Truthy(req.bookingId) && TruthyNumber(req.amount) && Truthy(req.paymentMethod) && req.paymentDetails.Some?
  }

  /** The checks that run before the gateway is called. */
  predicate Chargeable(s: Store, req: ChargeRequest) {
    && HasRequiredFields(req)
    && BookingIndex(s, req.bookingId.value).Some?
    && var b := s.bookings[BookingIndex(s, req.bookingId.value).value];
    && b.paymentStatus != PaymentStatus.COMPLETED
    && req.amount.value == b.price
  }

  function EarningFor(id: string, b: Booking, amount: int): Earning {
    Earning(id, b.consultantId, b.id, amount - Commission(amount), Commission(amount), amount, EarningStatus.PENDING)
  }

  /** POST: charge a booking. `earningId` is the id of the earning row. */
  function Charge(s: Store, req: ChargeRequest, gateway: Gateway, earningId: string): (r: Step<Receipt>)
    ensures !HasRequiredFields(req) ==> r == Step(s, Err(BadRequest))
    ensures HasRequiredFields(req) && BookingIndex(s, req.bookingId.value).None? ==> r == Step(s, Err(NotFound))
    ensures HasRequiredFields(req) && BookingIndex(s, req.bookingId.value).Some? && !Chargeable(s, req)
            ==> r == Step(s, Err(BadRequest))
    ensures r.response.Ok? <==> Chargeable(s, req) && gateway.Approved?
    ensures Chargeable(s, req) && gateway.Declined? ==>
      var i := BookingIndex(s, req.bookingId.value).value;
      && r.response == Err(BadRequest)
      && r.store == s.(bookings := s.bookings[i := s.bookings[i].(paymentStatus := PaymentStatus.FAILED)])
    ensures r.response.Ok? ==>
      var i := BookingIndex(s, req.bookingId.value).value;
      var before := s.bookings[i];
      var txn := TransactionPrefix + gateway.transactionSuffix;
      var after := before.(paymentStatus := PaymentStatus.COMPLETED, paymentId := Some(txn),
                           status := BookingStatus.CONFIRMED);
      && r.store == s.(bookings := s.bookings[i := after],
                       earnings := s.earnings + [EarningFor(earningId, before, req.amount.value)])
      && r.response.value == Receipt(txn, req.amount.value, after)
  {
    if !HasRequiredFields(req) then Step(s, Err(BadRequest))
    else match BookingIndex(s, req.bookingId.value)
      case None => Step(s, Err(NotFound))
      case Some(i) =>
        var b := s.bookings[i];
        var amount := req.amount.value;
        if b.paymentStatus == PaymentStatus.COMPLETED then Step(s, Err(BadRequest))
        else if amount != b.price then Step(s, Err(BadRequest))
        else match gateway
          case Declined =>
            Step(s.(bookings := s.bookings[i := b.(paymentStatus := PaymentStatus.FAILED)]), Err(BadRequest))
          case Approved(suffix) =>
            var txn := TransactionPrefix + suffix;
            var paid := b.(paymentStatus := PaymentStatus.COMPLETED, paymentId := Some(txn),
                           status := BookingStatus.CONFIRMED);
            Step(s.(bookings := s.bookings[i := paid], earnings := s.earnings + [EarningFor(earningId, b, amount)]),
                 Ok(Receipt(txn, amount, paid)))
  }

  /** A successful charge records exactly one earning whose parts add up to
      the amount paid, with a fifth (rounded down) kept as commission. */
  lemma ChargeEarning(s: Store, req: ChargeRequest, gateway: Gateway, earningId: string)
    requires Charge(s, req, gateway, earningId).response.Ok?
    ensures var r := Charge(s, req, gateway, earningId);
      && |r.store.earnings| == |s.earnings| + 1
      && r.store.earnings[..|s.earnings|] == s.earnings
      && var e := r.store.earnings[|s.earnings|];
      && e.totalAmount == req.amount.value
      && e.amount + e.commission == e.totalAmount
      && 5 * e.commission <= e.totalAmount < 5 * e.commission + 5
      && (e.totalAmount >= 0 ==> 0 <= e.commission <= e.totalAmount)
      && e.status == EarningStatus.PENDING
      && e.bookingId == req.bookingId.value
  {
    var r := Charge(s, req, gateway, earningId);
    var e := r.store.earnings[|s.earnings|];
    assert (s.earnings + [e])[..|s.earnings|] == s.earnings;
    CommissionIsFloorOfFifth(e.totalAmount);
  }

  /** A zero amount is falsy, so it is refused before the booking is read. */
  lemma ZeroAmountRefused(s: Store, req: ChargeRequest, gateway: Gateway, earningId: string)
    requires req.amount == Some(0)
    ensures Charge(s, req, gateway, earningId) == Step(s, Err(BadRequest))
  {
  }

  datatype RefundRequest = RefundRequest(
    transactionId: Option<string>, bookingId: Option<string>, reason: Option<string>)

  datatype RefundReceipt = RefundReceipt(transactionId: string, amount: int, reason: string)

  /** The booking a refund applies to: by `bookingId` when given, otherwise
      the first booking whose payment id is `transactionId`. */
  function RefundTarget(s: Store, req: RefundRequest): Option<nat> {
    if Truthy(req.bookingId) then BookingIndex(s, req.bookingId.value)
    else if Truthy(req.transactionId) then IndexOf(s.bookings, PaymentKey, req.transactionId)
    else None
  }

  /** `bookingId` takes precedence over `transactionId`. */
  lemma RefundBookingIdWins(s: Store, req: RefundRequest, txn: Option<string>)
    requires Truthy(req.bookingId)
    ensures RefundTarget(s, req) == RefundTarget(s, req.(transactionId := txn))
    ensures RefundTarget(s, req) == BookingIndex(s, req.bookingId.value)
  {
  }

  function ReasonOrDefault(reason: Option<string>): string {
    if Truthy(reason) then reason.value else DefaultRefundReason
  }

  /** PUT: refund a completed payment. The mock refund always succeeds;
      `refundSuffix` is the generated part of its transaction id. */
  function Refund(s: Store, req: RefundRequest, refundSuffix: string): (r: Step<RefundReceipt>)
    ensures !Truthy(req.transactionId) && !Truthy(req.bookingId) ==> r == Step(s, Err(BadRequest))
    ensures (Truthy(req.transactionId) || Truthy(req.bookingId)) && RefundTarget(s, req).None?
            ==> r == Step(s, Err(NotFound))
    ensures (RefundTarget(s, req).Some? &&
             s.bookings[RefundTarget(s, req).value].paymentStatus != PaymentStatus.COMPLETED)
            ==> r == Step(s, Err(BadRequest))
    ensures r.response.Ok? <==>
      RefundTarget(s, req).Some? && s.bookings[RefundTarget(s, req).value].paymentStatus == PaymentStatus.COMPLETED
    ensures r.response.Ok? ==>
      var i := RefundTarget(s, req).value;
      var before := s.bookings[i];
      && r.store.bookings == s.bookings[i := before.(paymentStatus := PaymentStatus.REFUNDED,
                                                      status := BookingStatus.CANCELLED)]
      && r.store.users == s.users && r.store.profiles == s.profiles
      && r.store.sessions == s.sessions && r.store.reviews == s.reviews
      && |r.store.earnings| == |s.earnings|
      && (match IndexOf(s.earnings, EarningBookingKey, before.id)
          case None => r.store.earnings == s.earnings
          case Some(k) => r.store.earnings == s.earnings[k := s.earnings[k].(status := EarningStatus.HELD)])
      && r.response.value == RefundReceipt(RefundPrefix + refundSuffix, before.price, ReasonOrDefault(req.reason))
  {
    if !Truthy(req.transactionId) && !Truthy(req.bookingId) then Step(s, Err(BadRequest))
    else match RefundTarget(s, req)
      case None => Step(s, Err(NotFound))
      case Some(i) =>
        var b := s.bookings[i];
        if b.paymentStatus != PaymentStatus.COMPLETED then Step(s, Err(BadRequest))
        else
          var refunded := b.(paymentStatus := PaymentStatus.REFUNDED, status := BookingStatus.CANCELLED);
          var earnings :=
            match IndexOf(s.earnings, EarningBookingKey, b.id)
            case None => s.earnings
            case Some(k) => s.earnings[k := s.earnings[k].(status := EarningStatus.HELD)];
          Step(s.(bookings := s.bookings[i := refunded], earnings := earnings),
               Ok(RefundReceipt(RefundPrefix + refundSuffix, b.price, ReasonOrDefault(req.reason))))
  }
}

=== FILE: reviews.dfy ===
/** Reviews: one per completed booking, written by the booking's client, and
    the public review listing (src/app/api/reviews/route.ts). */
module Reviews {
  import opened Basics
  import opened Http
  import opened Db
  import opened Listing

  const MinRating: int := 1
  const MaxRating: int := 5

  datatype CreateRequest = CreateRequest(
    bookingId: Option<string>,
    sessionId: Option<string>,
    clientId: Option<string>,
    consultantId: Option<string>,
    rating: Option<int>,
    review: Option<string>,
    isPublic: Option<bool>)      // defaults to true

  predicate HasRequiredFields(req: CreateRequest) {
    Truthy(req.bookingId) && Truthy(req.clientId) && Truthy(req.consultantId) && TruthyNumber(req.rating)
  }

  predicate RatingInRange(rating: int) {
    MinRating <= rating <= MaxRating
  }

  /** Why a review request is refused, in the order the handler checks. */
  datatype Refusal = MissingField | RatingOutOfRange | NoSuchBooking | NotYourBooking | NotCompleted | AlreadyReviewed

  function ErrorOf(why: Refusal): HttpError {
    match why
    case NoSuchBooking => NotFound
    case NotYourBooking => Forbidden
    case _ => BadRequest
  }

  /** The first check a request fails, if any. */
  function Check(s: Store, req: CreateRequest): Option<Refusal> {
    if !HasRequiredFields(req) then Some(MissingField)
    else if !RatingInRange(req.rating.value) then Some(RatingOutOfRange)
    else match IndexOf(s.bookings, BookingKey, req.bookingId.value)
      case None => Some(NoSuchBooking)
      case Some(i) =>
        var b := s.bookings[i];
        if b.clientId != req.clientId.value then Some(NotYourBooking)
        else if b.status != BookingStatus.COMPLETED then Some(NotCompleted)
        else if IndexOf(s.reviews, ReviewBookingKey, req.bookingId.value).Some? then Some(AlreadyReviewed)
        else None
  }

  /** The checks read positively: a review is accepted exactly when the
      booking exists, belongs to the requesting client, is COMPLETED and has
      no review yet, and the rating is a whole number from 1 to 5. */
  lemma CheckPassesIff(s: Store, req: CreateRequest)
    ensures Check(s, req).None? <==>
      && HasRequiredFields(req)
      && RatingInRange(req.rating.value)
      && (exists i :: 0 <= i < |s.bookings| && s.bookings[i].id == req.bookingId.value)
      && var b := s.bookings[IndexOf(s.bookings, BookingKey, req.bookingId.value).value];
      && b.clientId == req.clientId.value
      && b.status == BookingStatus.COMPLETED
      && (forall k :: 0 <= k < |s.reviews| ==> s.reviews[k].bookingId != req.bookingId.value)
  {
    if HasRequiredFields(req) && RatingInRange(req.rating.value) {
      var id := req.bookingId.value;
      if IndexOf(s.bookings, BookingKey, id).None? {
        assert !exists i :: 0 <= i < |s.bookings| && s.bookings[i].id == id by {
          forall i | 0 <= i < |s.bookings| ensures s.bookings[i].id != id {
            assert BookingKey(s.bookings[i]) != id;
          }
        }
      } else {
        var i := IndexOf(s.bookings, BookingKey, id).value;
        assert s.bookings[i].id == id;
        if IndexOf(s.reviews, ReviewBookingKey, id).None? {
          forall k | 0 <= k < |s.reviews| ensures s.reviews[k].bookingId != id {
            assert ReviewBookingKey(s.reviews[k]) != id;
          }
        } else {
          var k := IndexOf(s.reviews, ReviewBookingKey, id).value;
          assert s.reviews[k].bookingId == id;
        }
      }
    }
  }

  /** POST. `newId` is the id the database assigns. The consultant id is
      stored as given: it is not compared with the booking's consultant. */
  function Create(s: Store, req: CreateRequest, newId: string): (r: Step<Review>)
    ensures Check(s, req).Some? ==> r == Step(s, Err(ErrorOf(Check(s, req).value)))
    ensures r.response.Ok? <==> Check(s, req).None?
    ensures r.response.Ok? ==>
      var v := r.response.value;
      && v == Review(newId, req.bookingId.value, req.sessionId, req.clientId.value, req.consultantId.value,
                     req.rating.value, req.review, OrElse(req.isPublic, true))
      && r.store == s.(reviews := s.reviews + [v])
  {
    match Check(s, req)
    case Some(why) => Step(s, Err(ErrorOf(why)))
    case None =>
      var v := Review(newId, req.bookingId.value, req.sessionId, req.clientId.value, req.consultantId.value,
                      req.rating.value, req.review, OrElse(req.isPublic, true));
      Step(s.(reviews := s.reviews + [v]), Ok(v))
  }

  /** Every stored review's booking belongs to the reviewer and is COMPLETED
      at the time of writing; the rating is within range. */
  lemma CreatedReviewIsGrounded(s: Store, req: CreateRequest, newId: string)
    requires Create(s, req, newId).response.Ok?
    ensures var v := Create(s, req, newId).response.value;
      && RatingInRange(v.rating)
      && exists i :: 0 <= i < |s.bookings| && s.bookings[i].id == v.bookingId
                     && s.bookings[i].clientId == v.clientId && s.bookings[i].status == BookingStatus.COMPLETED
  {
    CheckPassesIff(s, req);
  }

  /** A second review of the same booking is refused and writes nothing. */
  lemma SecondReviewRefused(s: Store, req: CreateRequest, newId: string, req2: CreateRequest, newId2: string)
    requires Create(s, req, newId).response.Ok?
    requires HasRequiredFields(req2) && RatingInRange(req2.rating.value)
    requires req2.bookingId == req.bookingId && req2.clientId == req.clientId
    ensures var s' := Create(s, req, newId).store;
      Create(s', req2, newId2) == Step(s', Err(BadRequest))
  {
    var s' := Create(s, req, newId).store;
    assert ReviewBookingKey(s'.reviews[|s.reviews|]) == req.bookingId.value;
  }

  /** Creation keeps "at most one review per booking". */
  lemma CreateKeepsOneReviewPerBooking(s: Store, req: CreateRequest, newId: string)
    requires UniqueBy(s.reviews, ReviewBookingKey)
    ensures UniqueBy(Create(s, req, newId).store.reviews, ReviewBookingKey)
  {
    if Check(s, req).None? {
      var v := Create(s, req, newId).response.value;
      UniqueByAppend(s.reviews, ReviewBookingKey, v);
    }
  }

  datatype ListQuery = ListQuery(
    consultantId: Option<string>, clientId: Option<string>, bookingId: Option<string>,
    page: int, limit: int)

  /** The `where` clause: each truthy parameter is an equality filter, and
      only public reviews are ever listed. */
  predicate Matches(q: ListQuery, v: Review) {
    && (Truthy(q.consultantId) ==> v.consultantId == q.consultantId.value)
    && (Truthy(q.clientId) ==> v.clientId == q.clientId.value)
    && (Truthy(q.bookingId) ==> v.bookingId == q.bookingId.value)
    && v.isPublic
  }

  /** GET: public reviews, newest first. */
  function List(s: Store, q: ListQuery): (r: Response<Listed<Review>>)
    ensures r.Ok? <==> q.limit == 0 || (q.limit > 0 && q.page >= 1)
    ensures r.Ok? ==> forall v :: v in r.value.items ==> v in s.reviews && v.isPublic && Matches(q, v)
    ensures r.Ok? ==> r.value.pages == PageCount(r.value.total, q.limit)
    ensures r.Ok? ==> r.value.page == q.page && r.value.limit == q.limit
    ensures r.Ok? ==> r.value.total == |NewestFirst(s.reviews, v => Matches(q, v))| <= |s.reviews|
    ensures r.Ok? ==> IsPage(r.value.items, NewestFirst(s.reviews, v => Matches(q, v)), q.page, q.limit)
  {
    Paginate(NewestFirst(s.reviews, v => Matches(q, v)), q.page, q.limit)
  }

  /** A private review is never listed, whatever the query. */
  lemma PrivateReviewsHidden(s: Store, q: ListQuery, v: Review)
    requires !v.isPublic
    requires q.limit == 0 || (q.limit > 0 && q.page >= 1)
    ensures List(s, q).Ok? && v !in List(s, q).value.items
  {
  }

  /** A review just written as public is the first one its own booking's
      listing returns. */
  lemma NewPublicReviewListedFirst(s: Store, req: CreateRequest, newId: string, q: ListQuery)
    requires Create(s, req, newId).response.Ok?
    requires OrElse(req.isPublic, true)
    requires q.bookingId == req.bookingId && !Truthy(q.consultantId) && !Truthy(q.clientId)
    requires q.page == 1 && q.limit > 0
    ensures var s' := Create(s, req, newId).store;
      List(s', q).Ok? && List(s', q).value.items[0] == Create(s, req, newId).response.value
  {
    var v := Create(s, req, newId).response.value;
    NewestFirstAppend(s.reviews, x => Matches(q, x), v);
  }
}

=== FILE: sessions.dfy ===
/** Live sessions: creating one from a confirmed booking (which marks the
    booking COMPLETED), joining it, and listing sessions
    (src/app/api/sessions/route.ts). The id and join-code generators and the
    clock are parameters. */
module Sessions {
  import opened Basics
  import opened Http
  import opened Db
  import opened Listing

  const CodePrefix: string := "SS"
  const UrlPrefix: string := "https://session.inr99.academy/"

  datatype CreateRequest = CreateRequest(
    bookingId: Option<string>, clientId: Option<string>, consultantId: Option<string>)

  predicate HasRequiredFields(req: CreateRequest) {
    Truthy(req.bookingId) && Truthy(req.clientId) && Truthy(req.consultantId)
  }

  /** The checks the handler makes before writing. */
  predicate Startable(s: Store, req: CreateRequest) {
    && HasRequiredFields(req)
    && BookingIndex(s, req.bookingId.value).Some?
    && s.bookings[BookingIndex(s, req.bookingId.value).value].status == BookingStatus.CONFIRMED
  }

  /** The schema's unique columns of the session table: the row id, the join
      code and the booking (one session per booking). A write that would
      repeat one of them fails in the store. */
  predicate Collides(s: Store, id: string, code: string, bookingId: string) {
    || IndexOf(s.sessions, SessionKey, id).Some?
    || IndexOf(s.sessions, SessionCodeKey, code).Some?
    || IndexOf(s.sessions, SessionBookingKey, bookingId).Some?
  }

  /** POST. `newId` is the row id, `codeSuffix` the generated part of the join
      code, `now` the clock. The session is written SCHEDULED, the booking is
      then marked COMPLETED and pointed at the session, and the session is
      finally made ACTIVE with its URL. The response shows the session as
      first written, plus the URL. */
  function Create(s: Store, req: CreateRequest, newId: string, codeSuffix: string, now: Time): (r: Step<Session>)
    ensures !HasRequiredFields(req) ==> r == Step(s, Err(BadRequest))
    ensures HasRequiredFields(req) && BookingIndex(s, req.bookingId.value).None? ==> r == Step(s, Err(NotFound))
    ensures (HasRequiredFields(req) && BookingIndex(s, req.bookingId.value).Some? &&
             s.bookings[BookingIndex(s, req.bookingId.value).value].status != BookingStatus.CONFIRMED)
            ==> r == Step(s, Err(BadRequest))
    ensures r.response.Err? ==> r.store == s
    ensures r.response.Ok? <==>
      Startable(s, req) && !Collides(s, newId, CodePrefix + codeSuffix, req.bookingId.value)
    ensures Startable(s, req) && Collides(s, newId, CodePrefix + codeSuffix, req.bookingId.value)
            ==> r == Step(s, Err(ServerError))
    ensures r.response.Ok? ==>
      var i := BookingIndex(s, req.bookingId.value).value;
      var code := CodePrefix + codeSuffix;
      var x := r.response.value;
      && x == Session(newId, code, req.bookingId.value, req.clientId.value, req.consultantId.value,
                      SessionStatus.SCHEDULED, Some(now), Some(UrlPrefix + code))
      && r.store.bookings == s.bookings[i := s.bookings[i].(sessionId := Some(newId), status := BookingStatus.COMPLETED)]
      && r.store.sessions == s.sessions + [x.(status := SessionStatus.ACTIVE)]
      && r.store.users == s.users && r.store.profiles == s.profiles
      && r.store.reviews == s.reviews && r.store.earnings == s.earnings
  {
    if !HasRequiredFields(req) then Step(s, Err(BadRequest))
    else match BookingIndex(s, req.bookingId.value)
      case None => Step(s, Err(NotFound))
      case Some(i) =>
        var b := s.bookings[i];
        if b.status != BookingStatus.CONFIRMED then Step(s, Err(BadRequest))
        else
          var code := CodePrefix + codeSuffix;
          var created := Session(newId, code, req.bookingId.value, req.clientId.value, req.consultantId.value,
                                 SessionStatus.SCHEDULED, Some(now), None);
          if Collides(s, newId, code, req.bookingId.value) then Step(s, Err(ServerError))
          else
            var url := Some(UrlPrefix + code);
            Step(s.(bookings := s.bookings[i := b.(sessionId := Some(newId), status := BookingStatus.COMPLETED)],
                    sessions := s.sessions + [created.(sessionUrl := url, status := SessionStatus.ACTIVE)]),
                 Ok(created.(sessionUrl := url)))
  }

  /** A session can be opened for a confirmed booking whenever the generated
      id and code are new and the booking has no session yet. */
  lemma CreateSucceeds(s: Store, req: CreateRequest, newId: string, codeSuffix: string, now: Time)
    requires Startable(s, req)
    requires Fresh(s.sessions, SessionKey, newId)
    requires Fresh(s.sessions, SessionCodeKey, CodePrefix + codeSuffix)
    requires Fresh(s.sessions, SessionBookingKey, req.bookingId.value)
    ensures Create(s, req, newId, codeSuffix, now).response.Ok?
  {
  }

  /** A session's join code is found again by the code in its URL. */
  lemma UrlCarriesCode(s: Store, req: CreateRequest, newId: string, codeSuffix: string, now: Time)
    requires Create(s, req, newId, codeSuffix, now).response.Ok?
    ensures var x := Create(s, req, newId, codeSuffix, now).response.value;
      x.sessionUrl.Some? && x.sessionUrl.value[|UrlPrefix|..] == x.sessionId
      && x.sessionUrl.value[..|UrlPrefix|] == UrlPrefix
  {
  }

  datatype JoinRequest = JoinRequest(sessionId: Option<string>, userId: Option<string>, role: Option<string>)

  /** What the join endpoint reports about the session. */
  datatype JoinInfo = JoinInfo(sessionId: string, sessionUrl: Option<string>, status: SessionStatus, bookingId: string)

  /** Only the two named roles are checked against the session's parties;
      any other non-empty role is let through. */
  predicate MayJoin(x: Session, userId: string, role: string) {
    && (role == "client" ==> x.clientId == userId)
    && (role == "consultant" ==> x.consultantId == userId)
  }

  /** PUT: join a session by its code. A SCHEDULED session becomes ACTIVE and
      gets its start time; the response reports the status read before that
      update. */
  function Join(s: Store, req: JoinRequest, now: Time): (r: Step<JoinInfo>)
    ensures !Truthy(req.sessionId) || !Truthy(req.userId) || !Truthy(req.role) ==> r == Step(s, Err(BadRequest))
    ensures (Truthy(req.sessionId) && Truthy(req.userId) && Truthy(req.role) &&
             IndexOf(s.sessions, SessionCodeKey, req.sessionId.value).None?) ==> r == Step(s, Err(NotFound))
    ensures r.response.Err? ==> r.store == s
    ensures r.response.Err? && r.response.error == Forbidden ==>
      var x := s.sessions[IndexOf(s.sessions, SessionCodeKey, req.sessionId.value).value];
      !MayJoin(x, req.userId.value, req.role.value)
    ensures (Truthy(req.sessionId) && Truthy(req.userId) && Truthy(req.role) &&
             IndexOf(s.sessions, SessionCodeKey, req.sessionId.value).Some? &&
             !MayJoin(s.sessions[IndexOf(s.sessions, SessionCodeKey, req.sessionId.value).value],
                      req.userId.value, req.role.value))
            ==> r == Step(s, Err(Forbidden))
    ensures r.response.Ok? <==>
      && Truthy(req.sessionId) && Truthy(req.userId) && Truthy(req.role)
      && IndexOf(s.sessions, SessionCodeKey, req.sessionId.value).Some?
      && MayJoin(s.sessions[IndexOf(s.sessions, SessionCodeKey, req.sessionId.value).value],
                 req.userId.value, req.role.value)
    ensures r.response.Ok? ==>
      var i := IndexOf(s.sessions, SessionCodeKey, req.sessionId.value).value;
      var x := s.sessions[i];
      && r.response.value == JoinInfo(x.sessionId, x.sessionUrl, x.status, x.bookingId)
      && r.store == s.(sessions := r.store.sessions)
      && r.store.sessions == if x.status == SessionStatus.SCHEDULED
                             then s.sessions[i := x.(status := SessionStatus.ACTIVE, startedAt := Some(now))]
                             else s.sessions
  {
    if !Truthy(req.sessionId) || !Truthy(req.userId) || !Truthy(req.role) then Step(s, Err(BadRequest))
    else match IndexOf(s.sessions, SessionCodeKey, req.sessionId.value)
      case None => Step(s, Err(NotFound))
      case Some(i) =>
        var x := s.sessions[i];
        var userId, role := req.userId.value, req.role.value;
        if role == "client" && x.clientId != userId then Step(s, Err(Forbidden))
        else if role == "consultant" && x.consultantId != userId then Step(s, Err(Forbidden))
        else
          var info := JoinInfo(x.sessionId, x.sessionUrl, x.status, x.bookingId);
          if x.status == SessionStatus.SCHEDULED then
            Step(s.(sessions := s.sessions[i := x.(status := SessionStatus.ACTIVE, startedAt := Some(now))]), Ok(info))
          else Step(s, Ok(info))
  }

  /** Joining twice changes nothing the second time. */
  lemma JoinIdempotent(s: Store, req: JoinRequest, now: Time, later: Time)
    requires Join(s, req, now).response.Ok?
    ensures var s' := Join(s, req, now).store;
      Join(s', req, later).store == s'
  {
    var i := IndexOf(s.sessions, SessionCodeKey, req.sessionId.value).value;
    var s' := Join(s, req, now).store;
    IndexOfUpdate(s.sessions, SessionCodeKey, i, s'.sessions[i], req.sessionId.value);
  }

  /** A session opened by this handler is already ACTIVE, so joining it never
      writes to the store. */
  lemma JoinAfterCreateWritesNothing(s: Store, req: CreateRequest, newId: string, codeSuffix: string, now: Time,
                                     join: JoinRequest, later: Time)
    requires Create(s, req, newId, codeSuffix, now).response.Ok?
    requires join.sessionId == Some(CodePrefix + codeSuffix)
    ensures var s' := Create(s, req, newId, codeSuffix, now).store;
      Join(s', join, later).store == s'
  {
    var s' := Create(s, req, newId, codeSuffix, now).store;
    var x := s'.sessions[|s.sessions|];
    IndexOfAppendFresh(s.sessions, SessionCodeKey, x);
  }

  datatype ListQuery = ListQuery(
    userId: Option<string>, role: Option<string>, status: Option<SessionStatus>,
    page: int, limit: int)

  predicate Matches(f: PartyFilter, status: Option<SessionStatus>, x: Session) {
    MatchesParty(f, x.clientId, x.consultantId) && MatchesOptional(status, x.status)
  }

  /** GET: the sessions of a client or consultant, optionally of one status,
      newest first. */
  function List(s: Store, q: ListQuery): (r: Response<Listed<Session>>)
    ensures r.Ok? <==> q.limit == 0 || (q.limit > 0 && q.page >= 1)
    ensures r.Ok? ==> forall x :: x in r.value.items ==>
      && x in s.sessions
      && MatchesOptional(q.status, x.status)
      && (Truthy(q.userId) && q.role == Some("client") ==> x.clientId == q.userId.value)
      && (Truthy(q.userId) && q.role == Some("consultant") ==> x.consultantId == q.userId.value)
    ensures r.Ok? ==> r.value.pages == PageCount(r.value.total, q.limit)
    ensures r.Ok? ==> r.value.page == q.page && r.value.limit == q.limit
    ensures r.Ok? ==> r.value.total == |NewestFirst(s.sessions, x => Matches(PartyFilterFor(q.userId, q.role), q.status, x))|
    ensures r.Ok? ==> IsPage(r.value.items, NewestFirst(s.sessions, x => Matches(PartyFilterFor(q.userId, q.role), q.status, x)),
                             q.page, q.limit)
  {
    var f := PartyFilterFor(q.userId, q.role);
    Paginate(NewestFirst(s.sessions, x => Matches(f, q.status, x)), q.page, q.limit)
  }
}

=== FILE: text.dfy ===
/** The string operations the handlers use: `toLowerCase`, the
    `charAt(0) + slice(1).toLowerCase()` capitalisation, a case-insensitive
    `contains`, ordering of names, and `String.prototype.trim`. */
module Text {

  /** Lower-casing of one character; only the ASCII letters A-Z are mapped. */
  function LowerChar(c: char): char {
    if 'A' <= c <= 'Z' then (c as int + 32) as char else c
  }

  function Lower(s: string): (r: string)
    ensures |r| == |s|
    ensures forall i :: 0 <= i < |s| ==> r[i] == LowerChar(s[i])
  {
    seq(|s|, i requires 0 <= i < |s| => LowerChar(s[i]))
  }

  /** `s.charAt(0) + s.slice(1).toLowerCase()`: the first character is kept as
      it is and the rest is lower-cased; the empty string stays empty. */
  function Capitalize(s: string): string {
    if |s| == 0 then "" else [s[0]] + Lower(s[1..])
  }

  predicate IsPrefix(p: string, s: string) {
    |p| <= |s| && s[..|p|] == p
  }

  /** `hay.includes(needle)`: `needle` occurs at some position of `hay`. */
  predicate Contains(hay: string, needle: string)
    decreases |hay|
  {
    IsPrefix(needle, hay) || (|hay| > 0 && Contains(hay[1..], needle))
  }

  /** Prisma's `contains` with `mode: 'insensitive'`, folding ASCII case. */
  predicate ContainsInsensitive(hay: string, needle: string) {
    Contains(Lower(hay), Lower(needle))
  }

  /** Lexicographic order on character codes (standing in for `localeCompare`). */
  predicate LexLe(a: string, b: string) {
    if |a| == 0 then true
    else if |b| == 0 then false
    else if a[0] != b[0] then a[0] < b[0]
    else LexLe(a[1..], b[1..])
  }

  lemma {:induction false} LexLeTotal(a: string, b: string)
    ensures LexLe(a, b) || LexLe(b, a)
    decreases |a|
  {
    if |a| > 0 && |b| > 0 && a[0] == b[0] {
      LexLeTotal(a[1..], b[1..]);
    }
  }

  lemma {:induction false} LexLeTransitive(a: string, b: string, c: string)
    requires LexLe(a, b) && LexLe(b, c)
    ensures LexLe(a, c)
    decreases |a|
  {
    if |a| > 0 && |b| > 0 && |c| > 0 && a[0] == b[0] && b[0] == c[0] {
      LexLeTransitive(a[1..], b[1..], c[1..]);
    }
  }

  /** The characters `String.prototype.trim` removes: the ECMAScript
      WhiteSpace and LineTerminator code points. */
  predicate IsJsWhitespace(c: char) {
    || c == '\t' || c == '\n' || c == '\U{000B}' || c == '\U{000C}' || c == '\r'
    || c == ' ' || c == '\U{00A0}' || c == '\U{1680}'
    || ('\U{2000}' <= c <= '\U{200A}')
    || c == '\U{2028}' || c == '\U{2029}' || c == '\U{202F}' || c == '\U{205F}'
    || c == '\U{3000}' || c == '\U{FEFF}'
  }

  function TrimStart(s: string): string {
    if |s| > 0 && IsJsWhitespace(s[0]) then TrimStart(s[1..]) else s
  }

  function TrimEnd(s: string): string {
    if |s| > 0 && IsJsWhitespace(s[|s| - 1]) then TrimEnd(s[..|s| - 1]) else s
  }

  function Trim(s: string): string {
    TrimEnd(TrimStart(s))
  }

  predicate AllWhitespace(s: string) {
    forall i :: 0 <= i < |s| ==> IsJsWhitespace(s[i])
  }

  lemma {:induction false} TrimStartEmpty(s: string)
    ensures TrimStart(s) == "" <==> AllWhitespace(s)
    decreases |s|
  {
    if |s| > 0 && IsJsWhitespace(s[0]) {
      TrimStartEmpty(s[1..]);
      assert forall i :: 1 <= i < |s| ==> s[i] == s[1..][i - 1];
    }
  }

  lemma {:induction false} TrimEndOfNonEmpty(s: string)
    requires |s| > 0 && !IsJsWhitespace(s[0])
    ensures TrimEnd(s) != ""
    decreases |s|
  {
    if IsJsWhitespace(s[|s| - 1]) {
      TrimEndOfNonEmpty(s[..|s| - 1]);
    }
  }

  /** `s.trim()` is empty exactly when every character of `s` is whitespace. */
  lemma TrimEmptyIffAllWhitespace(s: string)
    ensures Trim(s) == "" <==> AllWhitespace(s)
  {
    TrimStartEmpty(s);
    var t := TrimStart(s);
    if t != "" {
      TrimStartShape(s);
      TrimEndOfNonEmpty(t);
    }
  }

  lemma {:induction false} TrimStartShape(s: string)
    ensures TrimStart(s) == "" || !IsJsWhitespace(TrimStart(s)[0])
    decreases |s|
  {
    if |s| > 0 && IsJsWhitespace(s[0]) {
      TrimStartShape(s[1..]);
    }
  }
}

=== FILE: traces.dfy ===
/** Request sequences across the handlers, showing how the booking's two
    status axes behave as the handlers are written: the instant shortcut
    lets a booking be completed and reviewed without a payment, a charge
    re-opens a completed booking, and a refunded booking can be paid again. */
module Traces {
  import opened Basics
  import opened Http
  import opened Db
  import Bookings
  import Payments
  import Sessions
  import Reviews

  /** The worked example of the payment split: a price of 99 leaves 80 to the
      consultant and 19 to the platform. */
  lemma CommissionExample(s: Store, req: Payments.ChargeRequest, gateway: Payments.Gateway, earningId: string)
    requires req.amount == Some(99)
    requires Payments.Charge(s, req, gateway, earningId).response.Ok?
    ensures var e := Payments.Charge(s, req, gateway, earningId).store.earnings[|s.earnings|];
      e.totalAmount == 99 && e.commission == 19 && e.amount == 80
  {
    Payments.ChargeEarning(s, req, gateway, earningId);
  }

  /** A booking whose price is 0 can never be paid: a zero amount is falsy and
      any other amount does not match the price. */
  lemma FreeBookingNeverPaid(s: Store, req: Payments.ChargeRequest, gateway: Payments.Gateway, earningId: string)
    requires Truthy(req.bookingId) && BookingIndex(s, req.bookingId.value).Some?
    requires s.bookings[BookingIndex(s, req.bookingId.value).value].price == 0
    ensures Payments.Charge(s, req, gateway, earningId).response.Err?
  {
  }

  /** After a successful charge the same booking cannot be charged again. */
  lemma {:induction false} SecondChargeRefused(s: Store, req: Payments.ChargeRequest, gateway: Payments.Gateway,
                                               earningId: string, gateway2: Payments.Gateway, earningId2: string)
    requires Payments.Charge(s, req, gateway, earningId).response.Ok?
    ensures var s' := Payments.Charge(s, req, gateway, earningId).store;
      Payments.Charge(s', req, gateway2, earningId2) == Step(s', Err(BadRequest))
  {
    var s' := Payments.Charge(s, req, gateway, earningId).store;
    var i := BookingIndex(s, req.bookingId.value).value;
    IndexOfUpdate(s.bookings, BookingKey, i, s'.bookings[i], req.bookingId.value);
  }

  /** After a successful create the same booking cannot be opened as a
      session again: it is no longer CONFIRMED. */
  lemma {:induction false} SecondSessionRefused(s: Store, req: Sessions.CreateRequest, newId: string,
                                                codeSuffix: string, now: Time, newId2: string,
                                                codeSuffix2: string, now2: Time)
    requires Sessions.Create(s, req, newId, codeSuffix, now).response.Ok?
    ensures var s' := Sessions.Create(s, req, newId, codeSuffix, now).store;
      Sessions.Create(s', req, newId2, codeSuffix2, now2) == Step(s', Err(BadRequest))
  {
    var s' := Sessions.Create(s, req, newId, codeSuffix, now).store;
    var i := BookingIndex(s, req.bookingId.value).value;
    IndexOfUpdate(s.bookings, BookingKey, i, s'.bookings[i], req.bookingId.value);
  }

  /** A declined charge marks the payment FAILED but leaves the booking open
      to another attempt, which the gateway may approve. */
  lemma {:induction false} DeclinedChargeRetried(s: Store, req: Payments.ChargeRequest, earningId: string,
                                                 suffix: string)
    requires Payments.Chargeable(s, req)
    ensures var s' := Payments.Charge(s, req, Payments.Declined, earningId).store;
      && s'.bookings[BookingIndex(s, req.bookingId.value).value].paymentStatus == PaymentStatus.FAILED
      && Payments.Charge(s', req, Payments.Approved(suffix), earningId).response.Ok?
  {
    var s' := Payments.Charge(s, req, Payments.Declined, earningId).store;
    var i := BookingIndex(s, req.bookingId.value).value;
    IndexOfUpdate(s.bookings, BookingKey, i, s'.bookings[i], req.bookingId.value);
  }

  /** After a refund the same refund request is refused: the payment is no
      longer COMPLETED. */
  lemma {:induction false} SecondRefundRefused(s: Store, req: Payments.RefundRequest, suffix: string, suffix2: string)
    requires Payments.Refund(s, req, suffix).response.Ok?
    ensures var s' := Payments.Refund(s, req, suffix).store;
      Payments.Refund(s', req, suffix2) == Step(s', Err(BadRequest))
  {
    var s' := Payments.Refund(s, req, suffix).store;
    var i := Payments.RefundTarget(s, req).value;
    if Truthy(req.bookingId) {
      IndexOfUpdate(s.bookings, BookingKey, i, s'.bookings[i], req.bookingId.value);
    } else {
      IndexOfUpdate(s.bookings, PaymentKey, i, s'.bookings[i], req.transactionId);
    }
  }

  /** The first step of the instant shortcut: the accepted booking is
      appended CONFIRMED and unpaid under its fresh id, and nothing else in
      the store changes. */
  lemma InstantBookingOpened(s: Store, breq: Bookings.CreateRequest, bid: string, numberSuffix: string, now: Time)
    requires Bookings.Accepted(s, breq) && breq.bookingType == Some(BookingType.INSTANT)
    requires Fresh(s.bookings, BookingKey, bid)
    ensures var r := Bookings.Create(s, breq, bid, numberSuffix, now);
      var b := r.store.bookings[|s.bookings|];
      && r.response.Ok?
      && r.store == s.(bookings := s.bookings + [b])
      && b.id == bid && b.clientId == breq.clientId.value && b.consultantId == breq.consultantId.value
      && b.status == BookingStatus.CONFIRMED && b.paymentStatus == PaymentStatus.PENDING
      && BookingIndex(r.store, bid) == Some(|s.bookings|)
  {
    var r := Bookings.Create(s, breq, bid, numberSuffix, now);
    var b := r.store.bookings[|s.bookings|];
    assert r.store.bookings == s.bookings + [b];
    IndexOfAppendFresh(s.bookings, BookingKey, b);
  }

  /** The instant shortcut end to end: an instant booking can be opened as a
      session, which marks it COMPLETED, and then reviewed by its client,
      while its payment is still PENDING and no earning has been recorded. */
  lemma {:induction false} InstantBookingCompletedUnpaid(
    s: Store, breq: Bookings.CreateRequest, bid: string, numberSuffix: string, now: Time,
    sid: string, codeSuffix: string, later: Time,
    rid: string, rating: int, text: Option<string>, isPublic: Option<bool>)
    requires Bookings.Accepted(s, breq) && breq.bookingType == Some(BookingType.INSTANT)
    requires bid != "" && Fresh(s.bookings, BookingKey, bid)
    requires Fresh(s.sessions, SessionKey, sid) && Fresh(s.sessions, SessionCodeKey, Sessions.CodePrefix + codeSuffix)
    requires Fresh(s.sessions, SessionBookingKey, bid)
    requires Fresh(s.reviews, ReviewBookingKey, bid)
    requires Reviews.RatingInRange(rating)
    ensures var s1 := Bookings.Create(s, breq, bid, numberSuffix, now).store;
      var sreq := Sessions.CreateRequest(Some(bid), breq.clientId, breq.consultantId);
      var s2 := Sessions.Create(s1, sreq, sid, codeSuffix, later).store;
      var rreq := Reviews.CreateRequest(Some(bid), Some(sid), breq.clientId, breq.consultantId,
                                        Some(rating), text, isPublic);
      var s3 := Reviews.Create(s2, rreq, rid).store;
      && Bookings.Create(s, breq, bid, numberSuffix, now).response.Ok?
      && Sessions.Create(s1, sreq, sid, codeSuffix, later).response.Ok?
      && Reviews.Create(s2, rreq, rid).response.Ok?
      && s3.bookings[|s.bookings|].id == bid
      && s3.bookings[|s.bookings|].status == BookingStatus.COMPLETED
      && s3.bookings[|s.bookings|].paymentStatus == PaymentStatus.PENDING
      && s3.earnings == s.earnings
  {
    InstantBookingOpened(s, breq, bid, numberSuffix, now);
    var s1 := Bookings.Create(s, breq, bid, numberSuffix, now).store;
    var sreq := Sessions.CreateRequest(Some(bid), breq.clientId, breq.consultantId);
    assert Sessions.Startable(s1, sreq);
    Sessions.CreateSucceeds(s1, sreq, sid, codeSuffix, later);
    var s2 := Sessions.Create(s1, sreq, sid, codeSuffix, later).store;
    IndexOfUpdate(s1.bookings, BookingKey, |s.bookings|, s2.bookings[|s.bookings|], bid);
    var rreq := Reviews.CreateRequest(Some(bid), Some(sid), breq.clientId, breq.consultantId,
                                      Some(rating), text, isPublic);
    assert IndexOf(s2.reviews, ReviewBookingKey, bid).None?;
    assert Reviews.Check(s2, rreq).None?;
  }

  /** Charging a booking that a session has already COMPLETED moves it back
      to CONFIRMED; opening a second session for it then passes the status
      check and is stopped only by the one-session-per-booking column. */
  lemma {:induction false} ChargeReopensCompletedBooking(
    s: Store, req: Payments.ChargeRequest, suffix: string, earningId: string,
    sreq: Sessions.CreateRequest, sid: string, codeSuffix: string, now: Time)
    requires Payments.Chargeable(s, req)
    requires s.bookings[BookingIndex(s, req.bookingId.value).value].status == BookingStatus.COMPLETED
    requires IndexOf(s.sessions, SessionBookingKey, req.bookingId.value).Some?
    requires Sessions.HasRequiredFields(sreq) && sreq.bookingId == req.bookingId
    ensures var s' := Payments.Charge(s, req, Payments.Approved(suffix), earningId).store;
      && s'.bookings[BookingIndex(s, req.bookingId.value).value].status == BookingStatus.CONFIRMED
      && Sessions.Startable(s', sreq)
      && Sessions.Create(s', sreq, sid, codeSuffix, now) == Step(s', Err(ServerError))
  {
    var s' := Payments.Charge(s, req, Payments.Approved(suffix), earningId).store;
    var i := BookingIndex(s, req.bookingId.value).value;
    IndexOfUpdate(s.bookings, BookingKey, i, s'.bookings[i], req.bookingId.value);
  }

  /** A refunded booking can be paid again, which records a second earning;
      refunding it again holds only the first earning of the booking, so the
      second stays PENDING although the booking is refunded and cancelled. */
  lemma {:induction false} RefundedBookingPaidAgain(
    s: Store, req: Payments.ChargeRequest, suffix: string, earningId: string, refundSuffix: string)
    requires Payments.Chargeable(s, req)
    requires s.bookings[BookingIndex(s, req.bookingId.value).value].paymentStatus == PaymentStatus.REFUNDED
    requires IndexOf(s.earnings, EarningBookingKey, req.bookingId.value).Some?
    ensures var r2 := Payments.Charge(s, req, Payments.Approved(suffix), earningId);
      var refund := Payments.RefundRequest(None, req.bookingId, None);
      var r3 := Payments.Refund(r2.store, refund, refundSuffix);
      var i := BookingIndex(s, req.bookingId.value).value;
      && r2.response.Ok? && r3.response.Ok?
      && |r3.store.earnings| == |s.earnings| + 1
      && r3.store.earnings[|s.earnings|].bookingId == req.bookingId.value
      && r3.store.earnings[|s.earnings|].status == EarningStatus.PENDING
      && r3.store.bookings[i].paymentStatus == PaymentStatus.REFUNDED
      && r3.store.bookings[i].status == BookingStatus.CANCELLED
  {
    var r2 := Payments.Charge(s, req, Payments.Approved(suffix), earningId);
    var s2 := r2.store;
    var bid := req.bookingId.value;
    var i := BookingIndex(s, bid).value;
    IndexOfUpdate(s.bookings, BookingKey, i, s2.bookings[i], bid);
    var e := s2.earnings[|s.earnings|];
    assert s2.earnings == s.earnings + [e];
    IndexOfAppend(s.earnings, EarningBookingKey, e, bid);
    var refund := Payments.RefundRequest(None, req.bookingId, None);
    assert Payments.RefundTarget(s2, refund) == Some(i);
  }
}

=== FILE: users.dfy ===
/** Accounts: lookup by id or email, creation with a hashed password and a
    duplicate-email check, and partial update of the profile fields
    (src/app/api/users/route.ts). The bcrypt hash is a parameter. */
module Users {
  import opened Basics
  import opened Http
  import opened Db

  /** The columns the handlers select: every field except the password. */
  datatype UserView = UserView(
    id: string, email: string, name: Option<string>, phone: Option<string>,
    avatar: Option<string>, role: UserRole)

  function View(u: User): UserView {
    UserView(u.id, u.email, u.name, u.phone, u.avatar, u.role)
  }

  function UserByEmail(s: Store, email: string): Option<User> {
    match IndexOf(s.users, EmailKey, email)
    case None => None
    case Some(i) => Some(s.users[i])
  }

  /** GET: `id` is looked up first (404 when unknown); otherwise `email`,
      where an unknown email is answered with a null user; neither is a 400. */
  function Get(s: Store, id: Option<string>, email: Option<string>): (r: Response<Option<UserView>>)
    ensures Truthy(id) ==> match UserById(s, id.value)
                           case None => r == Err(NotFound)
                           case Some(u) => r == Ok(Some(View(u))) && u.id == id.value
    ensures !Truthy(id) && Truthy(email) ==> r.Ok? && (r.value.Some? <==> exists i :: 0 <= i < |s.users| && s.users[i].email == email.value)
    ensures !Truthy(id) && Truthy(email) && r.value.Some? ==>
      exists i :: 0 <= i < |s.users| && s.users[i].email == email.value && r.value.value == View(s.users[i])
                  && forall j :: 0 <= j < i ==> s.users[j].email != email.value
    ensures !Truthy(id) && !Truthy(email) ==> r == Err(BadRequest)
  {
    if Truthy(id) then
      match UserById(s, id.value)
      case None => Err(NotFound)
      case Some(u) => Ok(Some(View(u)))
    else if Truthy(email) then
      match UserByEmail(s, email.value)
      case None => Ok(None)
      case Some(u) => Ok(Some(View(u)))
    else Err(BadRequest)
  }

  /** When an id is given the email parameter is never consulted. */
  lemma GetIdTakesPrecedence(s: Store, id: Option<string>, email1: Option<string>, email2: Option<string>)
    requires Truthy(id)
    ensures Get(s, id, email1) == Get(s, id, email2)
  {
  }

  datatype CreateRequest = CreateRequest(
    email: Option<string>, password: Option<string>, name: Option<string>,
    phone: Option<string>, role: Option<UserRole>)

  /** POST. `newId` is the id the database assigns; `hash` stands for
      `bcrypt.hash(password, 10)`. */
  function Create(s: Store, req: CreateRequest, newId: string, hash: string -> string): (r: Step<UserView>)
    ensures r.response.Ok? <==> Truthy(req.email) && Truthy(req.password) && UserByEmail(s, req.email.value).None?
    ensures r.response.Err? ==> r.store == s && r.response.error == BadRequest
    ensures r.response.Ok? ==>
      && r.store == s.(users := r.store.users)
      && |r.store.users| == |s.users| + 1
      && r.store.users[..|s.users|] == s.users
      && var u := r.store.users[|s.users|];
         && u.id == newId && u.email == req.email.value
         && u.password == hash(req.password.value)
         && u.role == OrElse(req.role, UserRole.CLIENT)
         && u.name == req.name && u.phone == req.phone && u.avatar.None?
         && r.response.value == View(u)
  {
    if !Truthy(req.email) || !Truthy(req.password) then Step(s, Err(BadRequest))
    else if UserByEmail(s, req.email.value).Some? then Step(s, Err(BadRequest))
    else
      var u := User(newId, req.email.value, hash(req.password.value), req.name, req.phone, None,
                    OrElse(req.role, UserRole.CLIENT));
      assert (s.users + [u])[..|s.users|] == s.users;
      Step(s.(users := s.users + [u]), Ok(View(u)))
  }

  /** Emails stay unique: creation refuses an email that is already taken. */
  lemma CreateKeepsEmailsUnique(s: Store, req: CreateRequest, newId: string, hash: string -> string)
    requires UniqueBy(s.users, EmailKey)
    ensures UniqueBy(Create(s, req, newId, hash).store.users, EmailKey)
  {
    var r := Create(s, req, newId, hash);
    if r.response.Ok? {
      var u := r.store.users[|s.users|];
      assert r.store.users == s.users + [u];
      UniqueByAppend(s.users, EmailKey, u);
    }
  }

  datatype UpdateRequest = UpdateRequest(
    userId: Option<string>, name: Option<string>, phone: Option<string>,
    avatar: Option<string>, role: Option<UserRole>)

  /** `{ ...(name && { name }), ... }`: only truthy fields are written. */
  function ApplyUpdate(u: User, req: UpdateRequest): User {
    u.(name := if Truthy(req.name) then req.name else u.name,
       phone := if Truthy(req.phone) then req.phone else u.phone,
       avatar := if Truthy(req.avatar) then req.avatar else u.avatar,
       role := if req.role.Some? then req.role.value else u.role)
  }

  /** PUT: a partial update of name, phone, avatar and role. */
  function Update(s: Store, req: UpdateRequest): (r: Step<UserView>)
    ensures !Truthy(req.userId) ==> r == Step(s, Err(BadRequest))
    ensures Truthy(req.userId) && UserById(s, req.userId.value).None? ==> r == Step(s, Err(NotFound))
    ensures r.response.Ok? <==> Truthy(req.userId) && UserById(s, req.userId.value).Some?
    ensures r.response.Ok? ==>
      var i := IndexOf(s.users, UserKey, req.userId.value).value;
      && |r.store.users| == |s.users|
      && var (before, after) := (s.users[i], r.store.users[i]);
      && r.store == s.(users := s.users[i := after])
      && after.id == before.id && after.email == before.email && after.password == before.password
      && after.name == (if Truthy(req.name) then req.name else before.name)
      && after.phone == (if Truthy(req.phone) then req.phone else before.phone)
      && after.avatar == (if Truthy(req.avatar) then req.avatar else before.avatar)
      && after.role == (if req.role.Some? then req.role.value else before.role)
      && r.response.value == View(after)
  {
    if !Truthy(req.userId) then Step(s, Err(BadRequest))
    else match IndexOf(s.users, UserKey, req.userId.value)
      case None => Step(s, Err(NotFound))
      case Some(i) =>
        var u := ApplyUpdate(s.users[i], req);
        Step(s.(users := s.users[i := u]), Ok(View(u)))
  }

  /** Updating never changes an id or an email, so both stay unique. */
  lemma UpdateKeepsKeysUnique(s: Store, req: UpdateRequest)
    requires UniqueBy(s.users, EmailKey) && UniqueBy(s.users, UserKey)
    ensures UniqueBy(Update(s, req).store.users, EmailKey)
    ensures UniqueBy(Update(s, req).store.users, UserKey)
  {
    var r := Update(s, req);
    if r.response.Ok? {
      var i := IndexOf(s.users, UserKey, req.userId.value).value;
      UniqueByUpdate(s.users, EmailKey, i, r.store.users[i]);
      UniqueByUpdate(s.users, UserKey, i, r.store.users[i]);
    }
  }
}
